=== FILE: README.md ===
# Certificate generator frontend: a verified model of its editing core

The certificate generator is a React/Redux frontend. A user lays out a certificate on an
A4 canvas as a template of positioned text and image elements. The user then maps
placeholder fields such as `{name}` to spreadsheet columns and exports one PDF page per
spreadsheet row. This project models that frontend's logic in Dafny as pure state
transitions and proves properties of the model:

- `template_model.dfy` (`TemplateModel`): templates, elements and their properties, the
  A4 constants. The element's `type` is read off a sum type of properties, so the two
  cannot disagree.
- `template_slice.dfy` (`TemplateSlice`): the template store's reducers (set, add, update
  by shallow merge, remove, select, save), the actions that reach them, and lemmas relating
  them.
- `excel_slice.dfy` (`ExcelSlice`): the spreadsheet store (columns, rows, field-to-column
  mapping).
- `placeholder.dfy` (`Placeholder`): the `{field}` scanner behind `/{(.*?)}/g`, the two
  substitutions built on it (`replaceFields` blanks unmapped fields, `getDisplayText`
  keeps them), and the round trip `Expand(Scan(s), Braced) == s`.
- `certificate_generator.dfy` (`CertificateGenerator`): the per-row template copy and the
  export handler. It installs each row's copy, records each capture as a page, and
  restores the original template, except when a capture throws, which skips the restore.
- `konva_canvas.dfy` (`KonvaCanvas`): the Konva canvas. It covers drag end, transform end
  with its minimum-size clamps, the transformer's bound-box guard, the textarea edit
  overlay and deselection on the background.
- `dom_gestures.dfy` (`DomGestures`): the DOM text boxes and the image element as one
  gesture machine:
  - incremental drag;
  - resize against a fixed snapshot;
  - edit on double-click, commit on blur;
  - document listeners attached only during a gesture.

  The machine runs against the store.
- `viewport.dfy` (`Viewport`): the page scale; the page style of the current canvas, of
  the archived one (which computes a scale and never applies it) and of the style the
  archived canvas's comment asks for; the canvas click; and the helper that switches the
  scale off around an export, as statements run by a small interpreter.
- `tool_panel.dfy` (`ToolPanel`): the default text box, the 400 x 400 fit of an uploaded
  image, and the upload.
- `wrappers.dfy` (`Wrappers`): `Option`.

Inputs that are not logic are parameters of the model:

- uuids and fresh ids;
- `new Date()` readings, as a `Time`;
- the rasterized canvas: `capture(i, t)` is the picture obtained, or nothing, for row `i`
  while template `t` is installed;
- the uploaded file's URL, and its natural size if the browser decodes it;
- pointer positions and DOM targets.

Geometry, scale and image sizes are `real`.

## Model

| member | source | states |
|---|---|---|
| TemplateModel.TypeName | certificate-generator-frontend/src/models/template.model.ts:12 | an element's type is exactly `"image"` or `"text"`, and it is `"text"` exactly for the text properties variant |
| TemplateModel.WithText | certificate-generator-frontend/src/models/template.model.ts:26-34 | replacing the text of text properties changes only `text`; image properties have no text and are returned as they are |
| TemplateModel.A4IsLandscape | certificate-generator-frontend/src/models/template.model.ts:36-37 | the A4 canvas, 1123 x 794, is wider than tall, so it takes the landscape branch of the orientation test |
| TemplateSlice.InitialState | certificate-generator-frontend/src/feautres/template/templateSlice.ts:13-24 | the initial store has no elements, no saved templates and no selection; the template is "Untitled Template" with description "Untitled" and both timestamps at the current time |
| TemplateSlice.SetCurrentTemplate | certificate-generator-frontend/src/feautres/template/templateSlice.ts:30-32 | the current template is replaced; the saved list and the selection are untouched |
| TemplateSlice.AddElement | certificate-generator-frontend/src/feautres/template/templateSlice.ts:34-36 | the element is appended after all existing ones, which keep their places; the id is not checked for duplicates; nothing else in the store changes |
| TemplateSlice.ElementById | certificate-generator-frontend/src/feautres/template/templateSlice.ts:40 | `find` yields nothing exactly when no element has the id, and otherwise the first element with it |
| TemplateSlice.UpdateElement | certificate-generator-frontend/src/feautres/template/templateSlice.ts:38-44 | the first element with the id becomes its shallow merge with the changes; every other element, the length and order, the template's other fields, the saved list and the selection are unchanged; with no element of that id the whole store is unchanged |
| TemplateSlice.MergeAllOfReplaces | certificate-generator-frontend/src/feautres/template/templateSlice.ts:42 | merging a whole element as changes yields exactly that element, whatever was there before |
| TemplateSlice.UpdateThen | certificate-generator-frontend/src/feautres/template/templateSlice.ts:38-44 | two updates of one element are a single update whose fields from the second win, as long as the first keeps the id |
| TemplateSlice.UpdateIdempotent | certificate-generator-frontend/src/feautres/template/templateSlice.ts:38-44 | repeating an update that keeps the id changes nothing further |
| TemplateSlice.WithoutId | certificate-generator-frontend/src/feautres/template/templateSlice.ts:47-49 | an element is kept exactly when it was in the list and has another id, and the result is no longer than the input |
| TemplateSlice.WithoutIdConcat | certificate-generator-frontend/src/feautres/template/templateSlice.ts:47-49 | filtering distributes over concatenation, so the survivors keep their relative order |
| TemplateSlice.RemoveElement | certificate-generator-frontend/src/feautres/template/templateSlice.ts:46-50 | every element with the id is gone and every other element stays; the selection is kept even when it named the removed element |
| TemplateSlice.RemoveIdempotent | certificate-generator-frontend/src/feautres/template/templateSlice.ts:46-50 | removing the same id twice is removing it once |
| TemplateSlice.AddThenRemove | certificate-generator-frontend/src/feautres/template/templateSlice.ts:34-50 | adding an element with a fresh id and removing that id restores the store |
| TemplateSlice.SelectElement | certificate-generator-frontend/src/feautres/template/templateSlice.ts:52-54 | only the selection changes, to an id or to none |
| TemplateSlice.SaveTemplate | certificate-generator-frontend/src/feautres/template/templateSlice.ts:56-65 | the current template gets the new `updatedAt`. If a saved template has its id, the first such entry is replaced in place and the list length is kept. Otherwise it is appended with `createdAt` set to the current time. Either way the current template ends up in the list and unique ids stay unique |
| TemplateSlice.SaveTwiceKeepsLength | certificate-generator-frontend/src/feautres/template/templateSlice.ts:56-65 | a second save does not grow the saved list again |
| ExcelSlice.SetExcelData | certificate-generator-frontend/src/feautres/template/excelSlice.ts:20-26 | columns and rows are replaced and the mapping is kept |
| ExcelSlice.SetMapping | certificate-generator-frontend/src/feautres/template/excelSlice.ts:27-29 | the mapping is replaced and columns and rows are kept |
| ExcelSlice.ClearExcel | certificate-generator-frontend/src/feautres/template/excelSlice.ts:30-34 | from any state the store is empty again |
| ExcelSlice.ClearForgets | certificate-generator-frontend/src/feautres/template/excelSlice.ts:10-34 | clearing is idempotent and returns to the initial store after any load and mapping |
| ExcelSlice.DataAndMappingCommute | certificate-generator-frontend/src/feautres/template/excelSlice.ts:20-29 | loading data and setting the mapping can be done in either order |
| Placeholder.FindClose | certificate-generator-frontend/src/components/template/CertificateGenerator.tsx:13 | the lazy `.*?` stops at the first `}` reachable without crossing a line terminator, and finds none exactly when such a `}` does not exist |
| Placeholder.Scan | certificate-generator-frontend/src/components/template/CertificateGenerator.tsx:13 | every field the scanner reports contains neither `}` nor a line terminator |
| Placeholder.ScanUnclosed | certificate-generator-frontend/src/components/template/CertificateGenerator.tsx:13 | a `{` with no `}` before the next line terminator or the end is a literal, and scanning resumes at the very next character |
| Placeholder.ScanOther | certificate-generator-frontend/src/components/template/CertificateGenerator.tsx:13 | any character other than `{` is a literal, and scanning goes on with the next one |
| Placeholder.ScanRoundTrip | certificate-generator-frontend/src/components/template/CertificateGenerator.tsx:13 | re-emitting every token as `{field}` gives back the text: the scanner loses and invents nothing |
| Placeholder.ScanToken | certificate-generator-frontend/src/components/template/CertificateGenerator.tsx:13 | `{f}` followed by anything is scanned as the token `f` followed by the scan of the rest |
| Placeholder.ExpandConcat | certificate-generator-frontend/src/components/template/CertificateGenerator.tsx:13 | substitution works segment by segment, with no effect across segment boundaries |
| Placeholder.ReplaceFields | certificate-generator-frontend/src/components/template/CertificateGenerator.tsx:7-17 | without a mapping or without a row the text is returned unchanged |
| Placeholder.ReplaceFieldsToken | certificate-generator-frontend/src/components/template/CertificateGenerator.tsx:13-16 | text outside the token is copied verbatim and the token becomes the mapped column's cell, or empty; the rest is substituted independently, so inserted values are never rescanned |
| Placeholder.ReplaceFieldsEmptyMapping | certificate-generator-frontend/src/components/template/CertificateGenerator.tsx:14-15 | a field with no mapping is replaced by the empty string rather than kept |
| Placeholder.ReplaceFieldsIdempotent | certificate-generator-frontend/src/components/template/CertificateGenerator.tsx:12-16 | when no cell value contains `{`, substituting the output again changes nothing |
| Placeholder.UnclosedStaysUnclosed | certificate-generator-frontend/src/components/template/CertificateGenerator.tsx:13 | when a text has no `}` before its first line terminator, neither has its substituted form, so a `{` just before it stays unclosable after substitution and no token is formed across it |
| Placeholder.HiNameExample | certificate-generator-frontend/src/components/template/CertificateGenerator.tsx:12-16 | "Hi {name}" with `name` mapped to a column holding "Ana" gives "Hi Ana" |
| Placeholder.HiNameUnmappedExample | certificate-generator-frontend/src/components/template/CertificateGenerator.tsx:14-15 | "Hi {name}" with an empty mapping gives "Hi " |
| Placeholder.DisplayText | certificate-generator-frontend/src/components/canvas/KonvaCanvas.tsx:121-124 | outside preview, or without preview data, the text is shown as stored |
| Placeholder.DisplayTextToken | certificate-generator-frontend/src/components/canvas/KonvaCanvas.tsx:123 | in preview a token shows its preview value, or `{field}` itself when the data has no such field |
| Placeholder.DisplayTextUnknownFields | certificate-generator-frontend/src/components/canvas/KonvaCanvas.tsx:121-124 | when the preview data names none of the text's fields, and in particular when it is empty, the preview equals the stored text |
| Placeholder.HiNamePreviewExample | certificate-generator-frontend/src/components/canvas/KonvaCanvas.tsx:123 | "Hi {name}" previewed with empty data stays "Hi {name}" |
| CertificateGenerator.GetTemplateWithRow | certificate-generator-frontend/src/components/template/CertificateGenerator.tsx:19-36 | the copy has the same template fields and the same elements in order. Each keeps its id, type, position, size and z-index. Image elements are unchanged, and text elements differ only in their substituted `text` |
| CertificateGenerator.GetTemplateWithRowIdempotent | certificate-generator-frontend/src/components/template/CertificateGenerator.tsx:19-36 | copying a copy for the same row changes nothing, when no cell value contains `{` |
| CertificateGenerator.OrientationOf | certificate-generator-frontend/src/components/template/CertificateGenerator.tsx:46 | landscape exactly when the layout is wider than tall |
| CertificateGenerator.AssembleStep | certificate-generator-frontend/src/components/template/CertificateGenerator.tsx:60-63 | a row without a picture adds nothing; a row with one adds a page holding it, except row 0, whose picture goes on the first page |
| CertificateGenerator.AssemblePageCount | certificate-generator-frontend/src/components/template/CertificateGenerator.tsx:45-63 | pages = 1 + the number of rows after the first that have a picture |
| CertificateGenerator.AssemblePageContents | certificate-generator-frontend/src/components/template/CertificateGenerator.tsx:45-63 | every page after the first holds exactly one picture; the first holds row 0's picture or is blank; every picture covers the page at the layout size |
| CertificateGenerator.AssembleImages | certificate-generator-frontend/src/components/template/CertificateGenerator.tsx:52-64 | the document's pictures are the obtained pictures, each once, in row order |
| CertificateGenerator.PagesWhenAllCaptured | certificate-generator-frontend/src/components/template/CertificateGenerator.tsx:52-64 | when every capture succeeds there is one page per row |
| CertificateGenerator.CaptureRows | certificate-generator-frontend/src/components/template/CertificateGenerator.tsx:52-64 | each row's copy is installed before its picture is taken, in row order. The loop stops at the first row whose capture throws, which is then left installed. If no row throws, the document is the one assembled from the pictures taken and the saved list and selection are untouched |
| CertificateGenerator.ExportRows | certificate-generator-frontend/src/components/template/CertificateGenerator.tsx:51-66 | when no row's capture throws: each row's copy is installed in row order, and then the original template is installed again; the store ends with the original template and unchanged saved list and selection, and the document is the one assembled from the captures. When row k is the first to throw, the restore never runs: the copies of rows 0 to k were installed and the store ends showing row k's copy |
| CertificateGenerator.GenerateCertificates | certificate-generator-frontend/src/components/template/CertificateGenerator.tsx:43-72 | with a mapping and rows it does the above, including leaving a throwing row's copy installed. Otherwise nothing is installed and the store is untouched; if the capture does not throw, the one page holds the current canvas's picture at A4 size, if there is one |
| KonvaCanvas.BoundBox | certificate-generator-frontend/src/components/canvas/KonvaCanvas.tsx:178-183 | an undersized proposal (below 50 x 30 for text, and below 30 x 30 for images by the same guard at lines 88-93) is refused and the previous box kept; any other is accepted |
| KonvaCanvas.TransformingKeepsMinimum | certificate-generator-frontend/src/components/canvas/KonvaCanvas.tsx:178-183 | through any sequence of proposals a transform that starts at an acceptable box never shows an undersized one |
| KonvaCanvas.TransformEnd | certificate-generator-frontend/src/components/canvas/KonvaCanvas.tsx:152-160 | the new size is the scaled size raised to the type's minimum (50 x 30 for text; 30 x 30 for images, lines 72-80); the position is the node's; id, type, z-index and properties are kept |
| KonvaCanvas.DragEndMovesOnly | certificate-generator-frontend/src/components/canvas/KonvaCanvas.tsx:145-151 | a drag end (the image's is the same, lines 65-71) stored through the update reducer changes only that element's x and y |
| KonvaCanvas.TransformEndResizesOnly | certificate-generator-frontend/src/components/canvas/KonvaCanvas.tsx:152-160 | a transform end (text here, images at lines 72-80) stored through the update reducer changes only that element's box, leaves it at least the minimum size, and leaves every other element alone |
| KonvaCanvas.TextDblClick | certificate-generator-frontend/src/components/canvas/KonvaCanvas.tsx:230-257 | with a shape, editing opens on a snapshot of the element with its text as the buffer; without one nothing happens |
| KonvaCanvas.TextareaInput | certificate-generator-frontend/src/components/canvas/KonvaCanvas.tsx:203 | typing replaces the buffer only while editing |
| KonvaCanvas.TextareaBlur | certificate-generator-frontend/src/components/canvas/KonvaCanvas.tsx:260-273 | the snapshot with the buffer as its text is dispatched as the changes, then editing element and buffer are cleared |
| KonvaCanvas.StageMouseDown | certificate-generator-frontend/src/components/canvas/KonvaCanvas.tsx:275-292 | a press on the stage or background (not a shape, not the transformer) clears the selection and drops an edit without committing, leaving the edit state alone when nothing is being edited; any other press does nothing |
| KonvaCanvas.EditEventsKeepConsistency | certificate-generator-frontend/src/components/canvas/KonvaCanvas.tsx:230-292 | every overlay event keeps "editing" and "has a snapshot" together |
| KonvaCanvas.EditCommitsBuffer | certificate-generator-frontend/src/components/canvas/KonvaCanvas.tsx:230-273 | double-click, type, blur: the element gets the typed text and keeps every other property, other elements are untouched, and an unchanged buffer leaves the store as it was |
| KonvaCanvas.BackgroundDiscardsEdit | certificate-generator-frontend/src/components/canvas/KonvaCanvas.tsx:284-291 | a background press during an edit closes it, commits nothing to the template and clears the selection |
| KonvaCanvas.ShapesKeepSelection | certificate-generator-frontend/src/components/canvas/KonvaCanvas.tsx:282-284 | presses on text or image shapes never deselect |
| DomGestures.SyncListeners | certificate-generator-frontend/src/components/canvas/TextBox.tsx:148-156 | after every render the document listeners are attached exactly while dragging or resizing |
| DomGestures.ResizeGeometry | certificate-generator-frontend/src/components/canvas/TextBox.tsx:129-140 | the new size is at least the minimum, at least the snapshot size plus the pointer offset, and equal to one of the two |
| DomGestures.DragTargetsCompose | certificate-generator-frontend/src/components/canvas/TextBox.tsx:114-127 | two incremental drag steps with the advancing origin land where one step from the first origin does |
| DomGestures.Step | certificate-generator-frontend/src/components/canvas/TextBox.tsx:23-157 | every action concerns this element; listeners are attached exactly during a gesture; a release ends both gestures; moves do nothing while no listener is attached; a non-editable element never starts editing |
| DomGestures.DragMoves | certificate-generator-frontend/src/components/canvas/TextBox.tsx:114-127 | any run of moves while dragging equals one move by the last pointer position minus the drag origin: steps do not drift, only x and y change, and the origin ends at the last pointer position |
| DomGestures.ResizeMoves | certificate-generator-frontend/src/components/canvas/TextBox.tsx:129-140 | any run of moves while resizing equals one resize to the clamped size for the last pointer position, measured from the fixed snapshot; only width and height change |
| DomGestures.DragGesture | certificate-generator-frontend/src/components/canvas/TextBox.tsx:23-157 | press, moves, release on an element not being edited: it is selected and moved by the last pointer position minus the press position, and afterwards no gesture or listener remains |
| DomGestures.ResizeClampExample | certificate-generator-frontend/src/components/canvas/TextBox.tsx:136-137 | resizing a 200 x 100 box by (-500, -500) stops at exactly 50 x 30 |
| DomGestures.FreshDragAfterRelease | certificate-generator-frontend/src/components/canvas/TextBox.tsx:23-146 | after a release, a new press starts a drag from the new position |
| DomGestures.EditSessionCommits | certificate-generator-frontend/src/components/archieve/TextBox.tsx:44-81 | double-click, optional typing, blur: the element's properties get the surface content as `text` and keep everything else |
| DomGestures.UnmodifiedEditKeepsText | certificate-generator-frontend/src/components/archieve/TextBox.tsx:60-81 | with the text loaded into the surface on entering edit mode, an unmodified edit leaves the store as it was |
| DomGestures.EditStoresContent | certificate-generator-frontend/src/components/archieve/TextBox.tsx:60-75 | typing and leaving stores what was typed as the text and keeps every other property |
| DomGestures.AsWrittenEditClearsText | certificate-generator-frontend/src/components/canvas/TextBox.tsx:44-87 | in canvas/TextBox (with the render at line 194), double-click then blur without typing stores an empty text, losing what the box said |
| DomGestures.ImageNeverEdits | certificate-generator-frontend/src/components/archieve/ImageElement.tsx:11-26 | the image element has no edit state: no event puts it into editing |
| Viewport.ContainerWidth | certificate-generator-frontend/src/components/canvas/Canvas.tsx:27 | the parent's width is used unless it is missing or 0, in which case the window's width is |
| Viewport.Scale | certificate-generator-frontend/src/components/canvas/Canvas.tsx:28 | the scale never exceeds 1, and is exactly 1 when the container is at least 1203 wide |
| Viewport.ScaledPageFitsContainer | certificate-generator-frontend/src/components/archieve/Canvas.tsx:28 | the page at that scale fits the container less 80; below full size it fills that room exactly |
| Viewport.ScaleMonotone | certificate-generator-frontend/src/components/canvas/Canvas.tsx:28 | a wider container never gives a smaller scale |
| Viewport.ScaleNonPositive | certificate-generator-frontend/src/components/canvas/Canvas.tsx:28 | with no lower clamp, the scale is 0 or below exactly when the container is at most 80 wide |
| Viewport.CurrentPageStyleAsWritten | certificate-generator-frontend/src/components/canvas/Canvas.tsx:43-47 | with the layout box at A4 times the scale and the transform scaling it again, the page appears at A4 times the scale squared |
| Viewport.AsWrittenPageScaledTwice | certificate-generator-frontend/src/components/canvas/Canvas.tsx:43-47 | for every container below full size, the page as written is drawn at the room the scale was computed for times the scale; for every container between 80 and 1203 wide that is strictly less than the room |
| Viewport.AsWrittenPageShrinksTwice | certificate-generator-frontend/src/components/canvas/Canvas.tsx:43-47 | with the scale of line 28, a 641.5-wide container gives scale 1/2, yet the page is drawn 280.75 wide instead of 561.5, while elements near its right edge are still drawn 561 in |
| Viewport.ArchivedPageStyle | certificate-generator-frontend/src/components/archieve/Canvas.tsx:44-49 | the archived page sets no transform, so it appears at 1123 x 794 whatever scale was computed |
| Viewport.ArchivedPageIgnoresScale | certificate-generator-frontend/src/components/archieve/Canvas.tsx:25-49 | for every two containers the archived page is drawn at the same size, which is the intended page at scale 1 (its transform left out); in any container below full size it is drawn wider than the intended scaled page, so it overflows |
| Viewport.IntendedPageStyle | certificate-generator-frontend/src/components/archieve/Canvas.tsx:47-48 | the style that comment asks for: the page laid out at 1123 x 794 and scaled once, so it appears at A4 times the scale, and at the logical size once the transform is removed |
| Viewport.PageStyleShowsScaledPage | certificate-generator-frontend/src/components/archieve/Canvas.tsx:47-48 | laid out as that comment asks and scaled once by the scale of canvas/Canvas.tsx line 28, the page appears at A4 times the scale, fills the container's room below full size, and contains every element of the page; the as-written page is smaller by a further factor of the scale |
| Viewport.CanvasClick | certificate-generator-frontend/src/components/canvas/Canvas.tsx:16-21 | the selection is cleared exactly for clicks whose target is the canvas itself |
| Viewport.CanvasClickDeselects | certificate-generator-frontend/src/components/archieve/Canvas.tsx:16-21 | on the store, a click on the canvas clears the selection; other clicks leave it; the templates are untouched |
| Viewport.RunHelper | certificate-generator-frontend/src/components/archieve/Canvas.tsx:80-87 | running the helper's statements: without a canvas it returns before calling the callback and leaves nothing; with one a transform is always left; only an invoked asynchronous callback has a remainder |
| Viewport.RemoveScaleTemporarilyAsWritten | certificate-generator-frontend/src/components/archieve/Canvas.tsx:80-87 | the callback is called exactly when the canvas exists, and the helper throws exactly when the callback does |
| Viewport.RemoveScaleRestores | certificate-generator-frontend/src/components/archieve/Canvas.tsx:83-86 | as written, for every callback, its synchronous part sees the transform 'none', and a callback that does not throw finds the earlier transform restored |
| Viewport.AsWrittenRestoreUnguarded | certificate-generator-frontend/src/components/archieve/Canvas.tsx:80-87 | as written, a throwing callback skips the restore and leaves the transform at 'none', and an asynchronous callback's remainder runs after the restore and sees the earlier transform |
| Viewport.RemoveScaleTemporarily | certificate-generator-frontend/src/components/archieve/Canvas.tsx:80-87 | with the callback awaited and the restore in `finally`, the callback is still called exactly when the canvas exists and the exception still reaches the caller |
| Viewport.GuardedRemovalRestores | certificate-generator-frontend/src/components/archieve/Canvas.tsx:80-87 | with the callback awaited and the restore in `finally`, for every callback all of its work sees 'none' and the earlier transform is restored however it ends |
| ToolPanel.NewTextBox | certificate-generator-frontend/src/components/template/ToolPanel.tsx:11-29 | the new text box has the given id, sits at (100, 100) with size 200 x 100 and z-index 1, says "Edit this text" in 16-point normal black Arial, left-aligned on a transparent background, and already meets the 50 x 30 text minimum |
| ToolPanel.AddTextBox | certificate-generator-frontend/src/components/template/ToolPanel.tsx:31 | the new box is appended after the existing elements; selection and saved list are untouched |
| ToolPanel.NewTextBoxIsStable | certificate-generator-frontend/src/components/template/ToolPanel.tsx:15-18 | the minimum clamps leave the new box's 200 x 100 size as it is |
| ToolPanel.AddTextBoxUndone | certificate-generator-frontend/src/components/template/ToolPanel.tsx:11-31 | adding a text box under a fresh id and removing that id restores the store |
| ToolPanel.FitRatio | certificate-generator-frontend/src/components/template/ToolPanel.tsx:58 | the ratio lies strictly between 0 and 1, is at most 400 over each nonzero side, and equals 400 over one of them |
| ToolPanel.FitImageFits | certificate-generator-frontend/src/components/template/ToolPanel.tsx:52-61 | an image within 400 x 400 keeps its size. A larger one is scaled uniformly: it then fits, one side is exactly 400, the aspect ratio is kept and neither side grows |
| ToolPanel.NewImage | certificate-generator-frontend/src/components/template/ToolPanel.tsx:63-75 | the new image element has the given id, sits at (100, 100) with z-index 0, shows the uploaded URL at opacity 1, and has the fitted size |
| ToolPanel.SmallUploadKeepsSize | certificate-generator-frontend/src/components/template/ToolPanel.tsx:57-75 | creation applies no minimum: a 10 x 5 upload becomes a 10 x 5 element |
| ToolPanel.UploadImage | certificate-generator-frontend/src/components/template/ToolPanel.tsx:38-81 | without a file, when the upload fails, or when the browser cannot decode the file (so `onload` never fires) the store is unchanged; otherwise the fitted image is appended and nothing else changes |
| ToolPanel.UploadAddsFittedImage | certificate-generator-frontend/src/components/template/ToolPanel.tsx:38-81 | for every upload the store is unchanged or gains exactly one image under the fresh id, fitting 400 x 400 with the file's aspect ratio, and removing that id restores the store |

## Left out

- Rendering, rasterization and the PDF library are left out: Konva nodes, `useImage`, `toDataURL`, jsPDF, the 300 ms settle wait and `pdf.save`. Captures are inputs and the document is a list of pages. Whether a row's `toDataURL` or `addImage` throws is also an input.
- The backend calls (`templateAPI.ts`, `TemplateSaver.tsx`), routing and static pages are network I/O and UI glue over the reducers modelled here.
- The store wiring registers only the template reducer, so the spreadsheet state that the export handler reads does not exist at run time. The model passes the mapping and rows explicitly.
- The export handler closes over the template, mapping and rows of the render that installed it. The model takes them as parameters, so it does not model that they can be stale.
- `CertificateGenerator.GetTemplateWithRow`: the JSON deep clone also turns `Date` fields into strings. Templates are values here, so the clone's only effect modelled is that the input is not modified.
- `Placeholder.ReplaceFields`: cell values are modelled as strings. The source inserts any cell value through string conversion, and a `null`/`undefined` cell becomes empty, which is what a missing key models.
- JavaScript property lookup on plain objects also finds inherited keys such as `constructor`, both in the mapping and in the preview data. The model's maps hold only the keys put into them.
- `TemplateSlice.SaveTemplate`: one clock reading is used for both `updatedAt` and `createdAt`. The source reads the clock twice, so the two can differ by the time between the reads.
- `TemplateSlice.InitialState`: the same holds for the initial template's `createdAt` and `updatedAt`, which the source also reads from two clock calls.
- `CertificateGenerator.ExportRows`: the export is modelled as running with nothing else dispatched in between. The handler waits 300 ms per row while the canvas and the save button stay live, so a drag, a selection or a save during the export changes the store; a save would put a row's substituted copy into the saved list. The stated final store holds only when nothing interleaves. A capture or `addImage` that throws is modelled through the `fails` input: it ends the loop with that row's copy installed and no restore.
- `CertificateGenerator.GenerateCertificates`: which canvases make `toDataURL` or `addImage` throw is not modelled. A zero-size stage is one case, since it yields a `data:,` URL that `addImage` rejects. When one throws, the handler rejects and nothing is saved, so the partly built document is not described.
- `Placeholder.Scan`: its own contract states only that reported fields are well formed; the three scanning rules are stated by `ScanToken`, `ScanUnclosed` and `ScanOther`.
- The spreadsheet parsing and the mapping UI that fill the spreadsheet store are not part of this model.
- Floating-point rounding is not modelled: geometry, the scale and the image fit are exact reals.
- `KonvaCanvas.TransformEnd`: uses the element's size where the source reads the node's; the node is rendered from the element, so they agree between gestures.
- The textarea's position and styling on entering edit mode are presentation only.
- React's batching of state updates is not modelled. The gesture machine handles each DOM event against the store as it stands, as if the component re-rendered between events.
- `DomGestures.UnmodifiedEditKeepsText`: the editable surface is modelled as returning the text it was loaded with. The archived box loads and commits through `innerHTML`, where text containing `&`, `<` or `>` comes back escaped or reparsed as markup.
- The placeholder text shown for an empty box and the focus timer after a double-click are presentation only.
- Resize handles exist only on the selected element, so the model ignores a resize start on an unselected one.
- The handle's press stops propagation, so it never also starts a drag.
- The window resize listener is left out: the scale is modelled as a function of the container width at each update.

## Findings

| source | as written | input that shows it | evidently intended | confidence | as-written member | corrected member |
|---|---|---|---|---|---|---|
| certificate-generator-frontend/src/components/canvas/TextBox.tsx:44-45,70-87,194 | entering edit mode stops rendering the text into the editable surface, which is left empty; blur commits the surface's content | a box saying "Edit this text": double-click, then click elsewhere without typing; the stored text becomes "" | the surface starts with the current text, as the archived TextBox loads it (archieve/TextBox.tsx:77-81), so an unmodified edit keeps the text | medium, not executed | DomGestures.AsWrittenEditClearsText | DomGestures.UnmodifiedEditKeepsText |
| certificate-generator-frontend/src/components/canvas/Canvas.tsx:43-47 | the page's layout box is already A4 times the scale, and `transform: scale(...)` scales it again | a container 641.5 pixels wide: scale 1/2, page drawn 280.75 wide instead of 561.5, while an element at logical x = 1122 is drawn 561 in | lay the page out at logical size and scale it once, as the comment at archieve/Canvas.tsx:47-48 asks (the archived canvas itself sets no transform at all, so it never shrinks the page) | medium, not executed | Viewport.AsWrittenPageScaledTwice | Viewport.PageStyleShowsScaledPage |
| certificate-generator-frontend/src/components/archieve/Canvas.tsx:80-87 | the transform is restored right after calling the callback, without `finally` and without awaiting a returned promise | on a canvas carrying a transform, a callback that throws (the transform stays 'none'), or an async one that captures after an `await` (it runs with the transform already restored) | await the callback and restore in `finally` | low, latent: the only `#designer-canvas` (archieve/Canvas.tsx:41) has no inline transform, so the kept value is empty and neither effect is visible, and no file modelled here calls the helper; not executed | Viewport.AsWrittenRestoreUnguarded | Viewport.GuardedRemovalRestores |

Where the code and the written design of this system differ, the model follows the code:

- `addElement` performs no duplicate-id check.
- `removeElement` keeps a selection that named the removed element.
- `replaceFields` blanks unmapped fields instead of leaving them literal.
- A missing stage or canvas makes the export place no picture, rather than raising an error.
- With no rows, the picture is placed at A4 size whatever the chosen layout.
- Editing is not locked while an export runs (see `CertificateGenerator.ExportRows` above).
- The restore of the original template after the export loop (CertificateGenerator.tsx:66) is not in a `finally`. A capture that throws skips it and leaves that row's copy on the canvas, rather than only losing that row's page.

=== FILE: certificate_generator.dfy ===
/**
  Certificate export: for every spreadsheet row, a copy of the template with the row's
  values substituted is installed as the current template, the canvas is rasterized,
  and the picture becomes a page of the output document; afterwards the template the
  handler started from is installed again.

  Rasterization, the settle wait before it and the PDF library are outside the model:
  each capture is an input `capture(i, t)`, the picture (or nothing) obtained for row
  `i` while template `t` is installed, and the document is a list of pages, each a
  list of placed pictures.
*/
module CertificateGenerator {
  import opened Wrappers
  import opened TemplateModel
  import opened TemplateSlice
  import opened ExcelSlice
  import opened Placeholder

  /** A rasterized canvas (a PNG data URL). */
  type Image = string

  datatype Layout = Layout(width: real, height: real, name: string)

  datatype Orientation = Portrait | Landscape

  datatype Placement = Placement(image: Image, x: real, y: real, width: real, height: real)

  datatype Document = Document(orientation: Orientation, format: Layout, pages: seq<seq<Placement>>)

  // ---------------------------------------------------------------------------
  // Per-row template
  // ---------------------------------------------------------------------------

  /** One element of the per-row copy: text elements get their text substituted. */
  function WithRow(e: Element, mapping: Mapping, row: Row): Element {
    match e.properties
    case TextProps(t) =>
      e.(properties := TextProps(t.(text := ReplaceFields(t.text, Some(mapping), Some(row)))))
    case ImageProps(_) => e
  }

  /** `getTemplateWithRow`: a copy of the template for one row. The input is a value,
      so it is never modified. */
  function GetTemplateWithRow(t: Template, mapping: Mapping, row: Row): (r: Template)
    ensures r.(elements := t.elements) == t
    ensures |r.elements| == |t.elements|
    ensures forall i :: 0 <= i < |t.elements| ==>
              var e, e' := t.elements[i], r.elements[i];
              && e'.id == e.id && e'.Type() == e.Type() && e'.zindex == e.zindex
              && e'.x == e.x && e'.y == e.y && e'.width == e.width && e'.height == e.height
              && (e.properties.ImageProps? ==> e' == e)
              && (e.properties.TextProps? ==>
                    e'.properties.textProps
                    == e.properties.textProps.(text := ReplaceFields(e.properties.textProps.text, Some(mapping), Some(row))))
  {
    t.(elements := seq(|t.elements|, i requires 0 <= i < |t.elements| => WithRow(t.elements[i], mapping, row)))
  }

  /** The per-row copy of a per-row copy is the same copy, when no cell value contains `{`. */
  lemma GetTemplateWithRowIdempotent(t: Template, mapping: Mapping, row: Row)
    requires forall c :: c in row ==> '{' !in row[c]
    ensures GetTemplateWithRow(GetTemplateWithRow(t, mapping, row), mapping, row) == GetTemplateWithRow(t, mapping, row)
  {
    var once := GetTemplateWithRow(t, mapping, row);
    var twice := GetTemplateWithRow(once, mapping, row);
    forall i | 0 <= i < |t.elements| ensures twice.elements[i] == once.elements[i] {
      if t.elements[i].properties.TextProps? {
        ReplaceFieldsIdempotent(t.elements[i].properties.textProps.text, mapping, row);
      }
    }
  }

  // ---------------------------------------------------------------------------
  // Page assembly
  // ---------------------------------------------------------------------------

  function OrientationOf(layout: Layout): (o: Orientation)
    ensures o == Landscape <==> layout.width > layout.height
  {
    if layout.width > layout.height then Landscape else Portrait
  }

  /** `new jsPDF(...)`: a document with one empty page. */
  function NewDocument(layout: Layout): Document {
    Document(OrientationOf(layout), layout, [[]])
  }

  /** `addPage`: a new empty page becomes the current one. */
  function AddPage(doc: Document): Document {
    doc.(pages := doc.pages + [[]])
  }

  /** `addImage`: the picture goes on the current (last) page. */
  function AddImage(doc: Document, p: Placement): Document
    requires |doc.pages| > 0
  {
    doc.(pages := doc.pages[..|doc.pages| - 1] + [doc.pages[|doc.pages| - 1] + [p]])
  }

  /** A row's picture covers the whole page. */
  function FullPage(img: Image, layout: Layout): Placement {
    Placement(img, 0.0, 0.0, layout.width, layout.height)
  }

  /** What one row contributes: nothing without a picture; otherwise a new page (except
      for row 0, which uses the document's first page) holding the picture. */
  function AddCapture(doc: Document, layout: Layout, i: nat, cap: Option<Image>): (r: Document)
    requires |doc.pages| > 0
    ensures |r.pages| > 0
  {
    match cap
    case None => doc
    case Some(img) => AddImage(if i > 0 then AddPage(doc) else doc, FullPage(img, layout))
  }

  /** The document after rows `0 .. |caps|-1` with the given capture outcomes. */
  function Assemble(layout: Layout, caps: seq<Option<Image>>): (doc: Document)
    ensures |doc.pages| > 0
    decreases |caps|
  {
    if |caps| == 0 then NewDocument(layout)
    else AddCapture(Assemble(layout, caps[..|caps| - 1]), layout, |caps| - 1, caps[|caps| - 1])
  }

  function CountPresent(caps: seq<Option<Image>>): nat
    decreases |caps|
  {
    if |caps| == 0 then 0 else CountPresent(caps[..|caps| - 1]) + (if caps[|caps| - 1].Some? then 1 else 0)
  }

  /** The pictures that were obtained, in row order. */
  function Present(caps: seq<Option<Image>>): seq<Image>
    decreases |caps|
  {
    if |caps| == 0 then []
    else Present(caps[..|caps| - 1]) + (if caps[|caps| - 1].Some? then [caps[|caps| - 1].value] else [])
  }

  /** The pictures of a document, page by page. */
  function Images(pages: seq<seq<Placement>>): seq<Image>
    decreases |pages|
  {
    if |pages| == 0 then []
    else Images(pages[..|pages| - 1]) + seq(|pages[|pages| - 1]|, k requires 0 <= k < |pages[|pages| - 1]| => pages[|pages| - 1][k].image)
  }

  lemma {:induction false} ImagesAppendPage(pages: seq<seq<Placement>>, page: seq<Placement>)
    ensures Images(pages + [page]) == Images(pages) + seq(|page|, k requires 0 <= k < |page| => page[k].image)
  {
    assert (pages + [page])[..|pages|] == pages;
  }

  /** One more row: its picture, if any, lands on a fresh page, or on the first page
      for row 0. */
  lemma AssembleStep(layout: Layout, caps: seq<Option<Image>>)
    requires |caps| > 0
    ensures var n := |caps| - 1;
      var prev, doc := Assemble(layout, caps[..n]), Assemble(layout, caps);
      && doc.orientation == prev.orientation && doc.format == prev.format
      && doc.pages == match caps[n]
                      case None => prev.pages
                      case Some(img) => if n > 0 then prev.pages + [[FullPage(img, layout)]] else [[FullPage(img, layout)]]
  {
    var n := |caps| - 1;
    var prev := Assemble(layout, caps[..n]);
    if caps[n].Some? {
      var p := FullPage(caps[n].value, layout);
      if n > 0 {
        var grown := AddPage(prev);
        assert grown.pages[..|grown.pages| - 1] == prev.pages;
        assert grown.pages[|grown.pages| - 1] == [];
        assert [] + [p] == [p];
      } else {
        assert caps[..n] == [];
        assert prev.pages == [[]];
        assert prev.pages[..0] == [];
        assert [] + [p] == [p];
      }
    }
  }

  /** The document has one page more than the pictures of rows after the first. */
  lemma {:induction false} AssemblePageCount(layout: Layout, caps: seq<Option<Image>>)
    ensures |Assemble(layout, caps).pages| == 1 + (if |caps| == 0 then 0 else CountPresent(caps[1..]))
    decreases |caps|
  {
    if |caps| > 0 {
      var n := |caps| - 1;
      AssemblePageCount(layout, caps[..n]);
      AssembleStep(layout, caps);
      if n > 0 {
        assert caps[1..][..n - 1] == caps[..n][1..];
      }
    }
  }

  /** Every page after the first holds exactly one picture, covering the page; the first
      holds row 0's picture or nothing. */
  lemma {:induction false} AssemblePageContents(layout: Layout, caps: seq<Option<Image>>)
    ensures var doc := Assemble(layout, caps);
      && doc.orientation == OrientationOf(layout) && doc.format == layout
      && (forall k :: 1 <= k < |doc.pages| ==> |doc.pages[k]| == 1)
      && |doc.pages[0]| == (if |caps| > 0 && caps[0].Some? then 1 else 0)
      && (forall k, j :: 0 <= k < |doc.pages| && 0 <= j < |doc.pages[k]| ==>
            doc.pages[k][j] == FullPage(doc.pages[k][j].image, layout))
    decreases |caps|
  {
    if |caps| > 0 {
      AssemblePageContents(layout, caps[..|caps| - 1]);
      AssembleStep(layout, caps);
    }
  }

  /** A page holding one placement adds that placement's picture to the end. */
  lemma ImagesAddPicture(pages: seq<seq<Placement>>, p: Placement)
    ensures Images(pages + [[p]]) == Images(pages) + [p.image]
  {
    ImagesAppendPage(pages, [p]);
    assert seq(1, k requires 0 <= k < 1 => [p][k].image) == [p.image];
  }

  /** The pictures appear in the document in row order, each obtained picture once. */
  lemma {:induction false} AssembleImages(layout: Layout, caps: seq<Option<Image>>)
    ensures Images(Assemble(layout, caps).pages) == Present(caps)
    decreases |caps|
  {
    if |caps| > 0 {
      var n := |caps| - 1;
      var prev := Assemble(layout, caps[..n]).pages;
      AssembleImages(layout, caps[..n]);
      AssembleStep(layout, caps);
      if caps[n].Some? {
        if n > 0 {
          ImagesAddPicture(prev, FullPage(caps[n].value, layout));
        } else {
          assert caps[..n] == [];
          ImagesAddPicture([], FullPage(caps[n].value, layout));
        }
      }
    }
  }

  /** Appending one row's outcome to the outcomes so far is one more `AddCapture`. */
  lemma AssembleSnoc(layout: Layout, caps: seq<Option<Image>>, cap: Option<Image>)
    ensures Assemble(layout, caps + [cap]) == AddCapture(Assemble(layout, caps), layout, |caps|, cap)
  {
    assert (caps + [cap])[..|caps|] == caps;
  }

  /** With every capture present there is one page per row. */
  lemma {:induction false} CountAllPresent(caps: seq<Option<Image>>)
    requires forall i :: 0 <= i < |caps| ==> caps[i].Some?
    ensures CountPresent(caps) == |caps|
    decreases |caps|
  {
    if |caps| > 0 {
      CountAllPresent(caps[..|caps| - 1]);
    }
  }

  // ---------------------------------------------------------------------------
  // The export handler
  // ---------------------------------------------------------------------------

  /** The row outcomes seen by the loop: row `j` is captured while its copy is installed. */
  ghost function RowCaptures(installed: seq<Template>, n: nat, capture: (nat, Template) -> Option<Image>): seq<Option<Image>>
    requires n <= |installed|
  {
    seq(n, j requires 0 <= j < n => capture(j, installed[j]))
  }

  /** The document built from row outcomes `caps`: its page count, page contents and
      picture order. */
  ghost predicate AssembledFrom(doc: Document, layout: Layout, caps: seq<Option<Image>>)
    requires |caps| > 0
  {
    && doc.orientation == OrientationOf(layout) && doc.format == layout
    && |doc.pages| == 1 + CountPresent(caps[1..])
    && (forall k :: 1 <= k < |doc.pages| ==> |doc.pages[k]| == 1)
    && |doc.pages[0]| == (if caps[0].Some? then 1 else 0)
    && Images(doc.pages) == Present(caps)
    && (forall k, j :: 0 <= k < |doc.pages| && 0 <= j < |doc.pages[k]| ==>
          doc.pages[k][j] == FullPage(doc.pages[k][j].image, layout))
  }

  /** Everything the document built from `caps` satisfies. */
  lemma AssembledFromAll(layout: Layout, caps: seq<Option<Image>>)
    requires |caps| > 0
    ensures AssembledFrom(Assemble(layout, caps), layout, caps)
  {
    AssemblePageCount(layout, caps);
    AssemblePageContents(layout, caps);
    AssembleImages(layout, caps);
  }

  lemma RowCapturesSnoc(installed: seq<Template>, t: Template, capture: (nat, Template) -> Option<Image>)
    ensures RowCaptures(installed + [t], |installed| + 1, capture)
            == RowCaptures(installed, |installed|, capture) + [capture(|installed|, t)]
  {
  }

  /** Appending row `i`'s copy to the copies of rows `0 .. i-1`. */
  lemma PreparedSnoc(installed: seq<Template>, rows: seq<Row>, prepare: Row -> Template, i: nat)
    requires |installed| == i < |rows|
    requires forall j :: 0 <= j < i ==> installed[j] == prepare(rows[j])
    ensures forall j :: 0 <= j <= i ==> (installed + [prepare(rows[i])])[j] == prepare(rows[j])
  {
  }

  /** Lines 61-63 for one row: skip a row without a picture; otherwise open a new page
      (except for row 0) and place the picture over the whole page. */
  method PlaceCapture(doc: Document, layout: Layout, i: nat, uri: Option<Image>) returns (r: Document)
    requires |doc.pages| > 0
    ensures r == AddCapture(doc, layout, i, uri)
  {
    r := doc;
    if uri.Some? {
      if i > 0 {
        r := AddPage(r);
      }
      r := AddImage(r, FullPage(uri.value, layout));
    }
  }

  /** The loop over the rows: `prepare` makes a row's copy of the template, which is
      installed before its picture is taken. `fails(i, t)` says that taking row `i`'s
      picture with `t` installed, or adding it to the document, throws. Nothing in the loop
      catches, so the first such row ends the loop there, and `failedAt` names it. */
  method CaptureRows(
    state: State, layout: Layout, rows: seq<Row>,
    prepare: Row -> Template, capture: (nat, Template) -> Option<Image>,
    fails: (nat, Template) -> bool)
    returns (doc: Document, installed: seq<Template>, s: State, failedAt: Option<nat>)
    ensures doc.orientation == OrientationOf(layout) && doc.format == layout
    ensures failedAt.None? <==> forall j :: 0 <= j < |rows| ==> !fails(j, prepare(rows[j]))
    ensures failedAt.Some? ==> failedAt.value < |rows|
    ensures |installed| == (if failedAt.Some? then failedAt.value + 1 else |rows|)
    ensures forall j :: 0 <= j < |installed| ==> installed[j] == prepare(rows[j])
    ensures failedAt.None? ==>
      && doc == Assemble(layout, RowCaptures(installed, |rows|, capture))
      && s.templates == state.templates && s.selectedElementId == state.selectedElementId
    ensures failedAt.Some? ==>
      && fails(failedAt.value, prepare(rows[failedAt.value]))
      && (forall j :: 0 <= j < failedAt.value ==> !fails(j, prepare(rows[j])))
      && s == SetCurrentTemplate(state, prepare(rows[failedAt.value]))
  {
    doc := NewDocument(layout);
    s := state;
    installed := [];
    failedAt := None;
    ghost var caps: seq<Option<Image>> := [];
    var i := 0;
    while i < |rows|
      invariant 0 <= i <= |rows|
      invariant |installed| == i
      invariant forall j :: 0 <= j < i ==> installed[j] == prepare(rows[j])
      invariant forall j :: 0 <= j < i ==> !fails(j, prepare(rows[j]))
      invariant caps == RowCaptures(installed, i, capture)
      invariant doc == Assemble(layout, caps)
      invariant doc.orientation == OrientationOf(layout) && doc.format == layout
      invariant s.templates == state.templates && s.selectedElementId == state.selectedElementId
    {
      var t := prepare(rows[i]);
      s := Reduce(s, SetCurrent(t));
      if fails(i, t) {
        assert s == SetCurrentTemplate(state, prepare(rows[i]));
        PreparedSnoc(installed, rows, prepare, i);
        installed := installed + [t];
        failedAt := Some(i);
        return;
      }
      var uri := capture(i, t);
      doc := PlaceCapture(doc, layout, i, uri);
      AssembleSnoc(layout, caps, uri);
      RowCapturesSnoc(installed, t, capture);
      PreparedSnoc(installed, rows, prepare, i);
      installed := installed + [t];
      caps := caps + [uri];
      i := i + 1;
    }
  }

  /** The handler's branch taken with a mapping and rows: the loop over the rows, then the
      restore of the original template. The restore is not in a `finally`, so a row that
      throws ends the handler with that row's copy still installed. */
  method ExportRows(
    state: State, template: Template, layout: Layout, rows: seq<Row>,
    prepare: Row -> Template, capture: (nat, Template) -> Option<Image>,
    fails: (nat, Template) -> bool)
    returns (doc: Document, installed: seq<Template>, final: State, failedAt: Option<nat>)
    requires |rows| > 0
    ensures doc.orientation == OrientationOf(layout) && doc.format == layout
    ensures failedAt.None? <==> forall j :: 0 <= j < |rows| ==> !fails(j, prepare(rows[j]))
    // Every row went through: one copy per row, then the original again.
    ensures failedAt.None? ==>
      && |installed| == |rows| + 1
      && (forall j :: 0 <= j < |rows| ==> installed[j] == prepare(rows[j]))
      && installed[|rows|] == template
      && final == SetCurrentTemplate(state, template)
      && AssembledFrom(doc, layout, RowCaptures(installed, |rows|, capture))
    // Row k threw: the copies up to row k were installed and row k's copy stays current.
    ensures failedAt.Some? ==>
      var k := failedAt.value;
      && k < |rows| && fails(k, prepare(rows[k]))
      && (forall j :: 0 <= j < k ==> !fails(j, prepare(rows[j])))
      && |installed| == k + 1
      && (forall j :: 0 <= j <= k ==> installed[j] == prepare(rows[j]))
      && final == SetCurrentTemplate(state, prepare(rows[k]))
  {
    var s;
    doc, installed, s, failedAt := CaptureRows(state, layout, rows, prepare, capture, fails);
    if failedAt.Some? {
      final := s;
      return;
    }
    ghost var caps := RowCaptures(installed, |rows|, capture);
    s := Reduce(s, SetCurrent(template));
    assert RowCaptures(installed + [template], |rows|, capture) == caps;
    installed := installed + [template];
    final := s;
    AssembledFromAll(layout, caps);
  }

  /** The `generate-certificates` handler. `template`, `mapping` and `rows` are the values
      the handler closed over; `state` is the store when it runs. Returns the document, the
      templates installed with `setCurrentTemplate` in order, the final store, and the row
      (0 for the single-canvas branch) whose capture threw, if any; when one did, the
      handler rejects and the document is never saved. */
  method GenerateCertificates(
    state: State, template: Template, layout: Layout,
    mapping: Option<Mapping>, rows: Option<seq<Row>>,
    capture: (nat, Template) -> Option<Image>, fails: (nat, Template) -> bool)
    returns (doc: Document, installed: seq<Template>, final: State, failedAt: Option<nat>)
    ensures doc.orientation == OrientationOf(layout) && doc.format == layout
    // With a mapping and at least one row: one copy per row, then the original again,
    // unless a row throws, which leaves that row's copy installed.
    ensures mapping.Some? && rows.Some? && |rows.value| > 0 ==>
      && (failedAt.None? <==> forall j :: 0 <= j < |rows.value| ==>
            !fails(j, GetTemplateWithRow(template, mapping.value, rows.value[j])))
      && (failedAt.None? ==>
            && |installed| == |rows.value| + 1
            && (forall j :: 0 <= j < |rows.value| ==> installed[j] == GetTemplateWithRow(template, mapping.value, rows.value[j]))
            && installed[|rows.value|] == template
            && final == SetCurrentTemplate(state, template)
            && AssembledFrom(doc, layout, RowCaptures(installed, |rows.value|, capture)))
      && (failedAt.Some? ==>
            && failedAt.value < |rows.value|
            && |installed| == failedAt.value + 1
            && final == SetCurrentTemplate(state, GetTemplateWithRow(template, mapping.value, rows.value[failedAt.value])))
    // Otherwise: the canvas as it is, on the single page, at A4 size.
    ensures !(mapping.Some? && rows.Some? && |rows.value| > 0) ==>
      && installed == [] && final == state
      && (failedAt.Some? <==> fails(0, state.currentTemplate))
      && (failedAt.None? ==>
            doc.pages == [match capture(0, state.currentTemplate)
                          case None => []
                          case Some(img) => [Placement(img, 0.0, 0.0, A4_WIDTH, A4_HEIGHT)]])
  {
    if mapping.Some? && rows.Some? && |rows.value| > 0 {
      doc, installed, final, failedAt := ExportRows(state, template, layout, rows.value,
                                          row => GetTemplateWithRow(template, mapping.value, row), capture, fails);
    } else {
      doc := NewDocument(layout);
      installed := [];
      final := state;
      if fails(0, state.currentTemplate) {
        failedAt := Some(0);
        return;
      }
      failedAt := None;
      var uri := capture(0, state.currentTemplate);
      if uri.Some? {
        var p := Placement(uri.value, 0.0, 0.0, A4_WIDTH, A4_HEIGHT);
        doc := AddImage(doc, p);
        assert doc.pages == [[] + [p]];
        assert [] + [p] == [p];
      }
    }
  }

  /** When every row's capture succeeds, the document has one page per row. */
  lemma PagesWhenAllCaptured(layout: Layout, caps: seq<Option<Image>>)
    requires |caps| > 0
    requires forall i :: 0 <= i < |caps| ==> caps[i].Some?
    ensures |Assemble(layout, caps).pages| == |caps|
  {
    AssemblePageCount(layout, caps);
    CountAllPresent(caps[1..]);
  }
}

=== FILE: dom_gestures.dfy ===
/**
  The DOM canvas elements (the two text boxes and the image element) handle pointer
  gestures themselves. Each keeps local state: whether it is editing, dragging or
  resizing, the drag origin, the resize snapshot, the content of its editable surface,
  and whether its document-level move/up listeners are attached. Every event yields the
  new local state and the store actions dispatched.

  The three components run one machine; they differ in whether they can edit, in what
  the editable surface holds when editing starts, and in their resize minimum.
*/
module DomGestures {
  import opened Wrappers
  import opened TemplateModel
  import opened TemplateSlice

  datatype Config = Config(editable: bool, loadsSurface: bool, minWidth: real, minHeight: real)

  /** canvas/TextBox as written: entering edit mode empties the editable surface. */
  const CanvasTextBoxAsWritten: Config := Config(true, false, TEXT_MIN_WIDTH, TEXT_MIN_HEIGHT)

  /** The text box that loads its text into the surface on entering edit mode: the
      archived TextBox, and canvas/TextBox as intended. */
  const TextBox: Config := Config(true, true, TEXT_MIN_WIDTH, TEXT_MIN_HEIGHT)

  /** The archived ImageElement: no editing, and the text box's 50 x 30 minimum. */
  const ImageElement: Config := Config(false, false, 50.0, 30.0)

  datatype Point = Point(x: real, y: real)

  /** Pointer position and element size when resizing started. */
  datatype Snapshot = Snapshot(x: real, y: real, width: real, height: real)

  datatype Local = Local(
    editing: bool,
    dragging: bool,
    resizing: bool,
    dragStart: Point,
    resizeStart: Snapshot,
    surface: string,
    listening: bool)

  /** The state a freshly mounted element starts in. */
  const Mounted: Local := Local(false, false, false, Point(0.0, 0.0), Snapshot(0.0, 0.0, 0.0, 0.0), "", false)

  datatype Event =
    | MouseDown(p: Point)      // on the element
    | ResizeStart(p: Point)    // on a resize handle
    | DoubleClick
    | Input(content: string)   // the user edits the surface
    | Blur
    | MouseMove(p: Point)      // on the document
    | MouseUp                  // on the document

  /** The effect that owns the listeners: after every render it removes the ones it
      attached and attaches them again only while a gesture is active. */
  function SyncListeners(ls: Local): (r: Local)
    ensures r.listening <==> r.dragging || r.resizing
    ensures r.(listening := ls.listening) == ls
  {
    ls.(listening := ls.dragging || ls.resizing)
  }

  /** `Math.max(min, start + delta)` per axis, against the fixed snapshot. */
  function ResizeGeometry(cfg: Config, snap: Snapshot, p: Point): (r: (real, real))
    ensures r.0 >= cfg.minWidth && r.1 >= cfg.minHeight
    ensures r.0 >= snap.width + (p.x - snap.x) && r.1 >= snap.height + (p.y - snap.y)
    ensures r.0 == cfg.minWidth || r.0 == snap.width + (p.x - snap.x)
    ensures r.1 == cfg.minHeight || r.1 == snap.height + (p.y - snap.y)
  {
    (Max(cfg.minWidth, snap.width + (p.x - snap.x)), Max(cfg.minHeight, snap.height + (p.y - snap.y)))
  }

  /** Where an incremental drag step puts the element: moved by the pointer's offset
      from the current drag origin. */
  function DragTarget(x: real, y: real, origin: Point, p: Point): (r: (real, real))
    ensures r.0 - x == p.x - origin.x && r.1 - y == p.y - origin.y
  {
    (x + (p.x - origin.x), y + (p.y - origin.y))
  }

  /** Two drag steps add up: stepping from origin `o` to `p` and then from `p` to `q` lands
      where one step from `o` to `q` does. */
  lemma DragTargetsCompose(x: real, y: real, o: Point, p: Point, q: Point)
    ensures var mid := DragTarget(x, y, o, p);
            DragTarget(mid.0, mid.1, p, q) == DragTarget(x, y, o, q)
  {
  }

  /** The event handlers. `el` is the element as rendered; `selected` says whether the
      resize handles are shown. */
  function Handle(cfg: Config, ls: Local, el: Element, selected: bool, ev: Event): (Local, seq<Action>) {
    match ev
    case MouseDown(p) =>
      // The image element has no edit state, so its unconditional start is this same rule.
      (if ls.editing then ls else ls.(dragging := true, dragStart := p), [Select(Some(el.id))])
    case ResizeStart(p) =>
      (if selected then ls.(resizing := true, resizeStart := Snapshot(p.x, p.y, el.width, el.height)) else ls, [])
    case DoubleClick =>
      if cfg.editable && !ls.editing then
        (ls.(editing := true, surface := if cfg.loadsSurface then TextOf(el) else ""), [])
      else (ls, [])
    case Input(content) =>
      (if ls.editing then ls.(surface := content) else ls, [])
    case Blur =>
      // The surface only takes focus while it is editable.
      if ls.editing then
        (ls.(editing := false), [Update(el.id, NoChanges.(properties := Some(WithText(el.properties, ls.surface))))])
      else (ls, [])
    case MouseMove(p) =>
      if !ls.listening then (ls, [])
      else
        var to := DragTarget(el.x, el.y, ls.dragStart, p);
        var drag := if ls.dragging then [Update(el.id, MoveTo(to.0, to.1))] else [];
        var size := ResizeGeometry(cfg, ls.resizeStart, p);
        var resize := if ls.resizing then [Update(el.id, ResizeTo(size.0, size.1))] else [];
        (if ls.dragging then ls.(dragStart := p) else ls, drag + resize)
    case MouseUp =>
      (if ls.listening then ls.(dragging := false, resizing := false) else ls, [])
  }

  /** One event followed by the listener effect. Every action concerns this element; the
      listeners are attached exactly while a gesture is active; a release ends both
      gestures; moves reach the element only while its listeners are attached. */
  function Step(cfg: Config, ls: Local, el: Element, selected: bool, ev: Event): (r: (Local, seq<Action>))
    requires ls.listening <==> ls.dragging || ls.resizing
    ensures r.0.listening <==> r.0.dragging || r.0.resizing
    ensures forall a :: a in r.1 ==> a == Select(Some(el.id)) || (a.Update? && a.id == el.id)
    ensures ev.MouseUp? ==> !r.0.dragging && !r.0.resizing && !r.0.listening
    ensures ev.MouseMove? && !ls.listening ==> r == (ls, [])
    ensures !cfg.editable && !ls.editing ==> !r.0.editing
  {
    var (next, acts) := Handle(cfg, ls, el, selected, ev);
    (SyncListeners(next), acts)
  }

  /** The element component over the store: each event is handled against the element
      the store currently holds under `id`; once there is none, the component is gone. */
  function Run(cfg: Config, ls: Local, s: State, id: string, evs: seq<Event>): (State, Local)
    requires ls.listening <==> ls.dragging || ls.resizing
    decreases |evs|
  {
    if |evs| == 0 then (s, ls)
    else
      match ElementById(s.Elements(), id)
      case None => (s, ls)
      case Some(el) =>
        var (ls', acts) := Step(cfg, ls, el, s.selectedElementId == Some(id), evs[0]);
        Run(cfg, ls', ReduceAll(s, acts), id, evs[1..])
  }

  function Moves(ps: seq<Point>): (evs: seq<Event>)
    ensures |evs| == |ps| && forall i :: 0 <= i < |ps| ==> evs[i] == MouseMove(ps[i])
  {
    seq(|ps|, i requires 0 <= i < |ps| => MouseMove(ps[i]))
  }

  // ---------------------------------------------------------------------------
  // Store facts the gesture proofs use
  // ---------------------------------------------------------------------------

  /** One event of a run, while the element is there. */
  lemma RunFirst(cfg: Config, ls: Local, s: State, id: string, evs: seq<Event>, el: Element)
    requires ls.listening <==> ls.dragging || ls.resizing
    requires |evs| > 0 && ElementById(s.Elements(), id) == Some(el)
    ensures var st := Step(cfg, ls, el, s.selectedElementId == Some(id), evs[0]);
            Run(cfg, ls, s, id, evs) == Run(cfg, st.0, ReduceAll(s, st.1), id, evs[1..])
  {
  }

  /** A single update action is the reducer call. */
  lemma ReduceOneUpdate(s: State, id: string, c: Changes)
    ensures ReduceAll(s, [Update(id, c)]) == UpdateElement(s, id, c)
  {
    assert [Update(id, c)][1..] == [];
  }

  lemma FirstIndexUnique(els: seq<Element>, id: string, i: int, k: int)
    requires IsFirstWithId(els, id, i) && IsFirstWithId(els, id, k)
    ensures i == k
  {
  }

  /** The component sees the element at the first index holding its id. */
  lemma ElementAtFirst(s: State, i: nat)
    requires i < |s.Elements()| && IsFirstWithId(s.Elements(), s.Elements()[i].id, i)
    ensures ElementById(s.Elements(), s.Elements()[i].id) == Some(s.Elements()[i])
  {
    var id := s.Elements()[i].id;
    assert HasId(s.Elements(), id);
    var r := ElementById(s.Elements(), id);
    var k :| IsFirstWithId(s.Elements(), id, k) && s.Elements()[k] == r.value;
    FirstIndexUnique(s.Elements(), id, i, k);
  }

  /** An update that keeps the id leaves the element first with its id, at the same place. */
  lemma UpdateKeepsFirst(s: State, i: nat, c: Changes)
    requires i < |s.Elements()| && IsFirstWithId(s.Elements(), s.Elements()[i].id, i)
    requires KeepsId(c, s.Elements()[i].id)
    ensures var r := UpdateElement(s, s.Elements()[i].id, c);
            && r.Elements()[i] == Merge(s.Elements()[i], c)
            && IsFirstWithId(r.Elements(), s.Elements()[i].id, i)
  {
  }

  // ---------------------------------------------------------------------------
  // Dragging and resizing
  // ---------------------------------------------------------------------------

  /** The first move of a drag moves the element by the pointer's offset from the drag
      origin, and makes the pointer position the new origin. */
  lemma DragFirstMove(cfg: Config, ls: Local, s: State, i: nat, ps: seq<Point>)
    requires i < |s.Elements()| && IsFirstWithId(s.Elements(), s.Elements()[i].id, i)
    requires ls.dragging && !ls.resizing && ls.listening
    requires |ps| > 0
    ensures var el, to := s.Elements()[i], DragTarget(s.Elements()[i].x, s.Elements()[i].y, ls.dragStart, ps[0]);
            Run(cfg, ls, s, el.id, Moves(ps))
            == Run(cfg, ls.(dragStart := ps[0]), UpdateElement(s, el.id, MoveTo(to.0, to.1)), el.id, Moves(ps[1..]))
  {
    var el := s.Elements()[i];
    var id := el.id;
    ElementAtFirst(s, i);
    var p := ps[0];
    var to := DragTarget(el.x, el.y, ls.dragStart, p);
    var c0 := MoveTo(to.0, to.1);
    assert [Update(id, c0)] + [] == [Update(id, c0)];
    assert Handle(cfg, ls, el, s.selectedElementId == Some(id), MouseMove(p)) == (ls.(dragStart := p), [Update(id, c0)]);
    ReduceOneUpdate(s, id, c0);
    assert Moves(ps)[1..] == Moves(ps[1..]);
    RunFirst(cfg, ls, s, id, Moves(ps), el);
  }

  /** A run of moves while dragging is a single move to where the element started plus
      the last pointer position minus the drag origin: deltas add up without drift, only
      x and y change, and the origin ends at the last pointer position. */
  lemma {:induction false} DragMoves(cfg: Config, ls: Local, s: State, i: nat, ps: seq<Point>)
    requires i < |s.Elements()| && IsFirstWithId(s.Elements(), s.Elements()[i].id, i)
    requires ls.dragging && !ls.resizing && ls.listening
    requires |ps| > 0
    ensures var el, to := s.Elements()[i], DragTarget(s.Elements()[i].x, s.Elements()[i].y, ls.dragStart, ps[|ps| - 1]);
            Run(cfg, ls, s, el.id, Moves(ps)) == (UpdateElement(s, el.id, MoveTo(to.0, to.1)), ls.(dragStart := ps[|ps| - 1]))
    decreases |ps|
  {
    var el := s.Elements()[i];
    var id := el.id;
    var to1 := DragTarget(el.x, el.y, ls.dragStart, ps[0]);
    var s1 := UpdateElement(s, id, MoveTo(to1.0, to1.1));
    var ls1 := ls.(dragStart := ps[0]);
    var last := ps[|ps| - 1];
    var tof := DragTarget(el.x, el.y, ls.dragStart, last);
    // Facts about the store and the points come first, so that no run is in scope yet.
    if |ps| == 1 {
      assert Moves(ps[1..]) == [];
    } else {
      assert ps[1..][|ps[1..]| - 1] == last;
      UpdateKeepsFirst(s, i, MoveTo(to1.0, to1.1));
      assert s1.Elements()[i].x == to1.0 && s1.Elements()[i].y == to1.1;
      DragTargetsCompose(el.x, el.y, ls.dragStart, ps[0], last);
      MoveThenMove(s, id, to1.0, to1.1, tof.0, tof.1);
    }
    DragFirstMove(cfg, ls, s, i, ps);
    if |ps| > 1 {
      DragMoves(cfg, ls1, s1, i, ps[1..]);
    }
  }

  /** The first move of a resize sets the clamped size for that pointer position. */
  lemma ResizeFirstMove(cfg: Config, ls: Local, s: State, i: nat, ps: seq<Point>)
    requires i < |s.Elements()| && IsFirstWithId(s.Elements(), s.Elements()[i].id, i)
    requires ls.resizing && !ls.dragging && ls.listening
    requires |ps| > 0
    ensures var el, size := s.Elements()[i], ResizeGeometry(cfg, ls.resizeStart, ps[0]);
            Run(cfg, ls, s, el.id, Moves(ps))
            == Run(cfg, ls, UpdateElement(s, el.id, ResizeTo(size.0, size.1)), el.id, Moves(ps[1..]))
  {
    var el := s.Elements()[i];
    var id := el.id;
    ElementAtFirst(s, i);
    var size0 := ResizeGeometry(cfg, ls.resizeStart, ps[0]);
    var c0 := ResizeTo(size0.0, size0.1);
    assert [] + [Update(id, c0)] == [Update(id, c0)];
    assert Handle(cfg, ls, el, s.selectedElementId == Some(id), MouseMove(ps[0])) == (ls, [Update(id, c0)]);
    ReduceOneUpdate(s, id, c0);
    assert Moves(ps)[1..] == Moves(ps[1..]);
    RunFirst(cfg, ls, s, id, Moves(ps), el);
  }

  /** A run of moves while resizing is a single resize to the clamped size for the last
      pointer position, measured from the fixed snapshot: only width and height change. */
  lemma {:induction false} ResizeMoves(cfg: Config, ls: Local, s: State, i: nat, ps: seq<Point>)
    requires i < |s.Elements()| && IsFirstWithId(s.Elements(), s.Elements()[i].id, i)
    requires ls.resizing && !ls.dragging && ls.listening
    requires |ps| > 0
    ensures var el, size := s.Elements()[i], ResizeGeometry(cfg, ls.resizeStart, ps[|ps| - 1]);
            Run(cfg, ls, s, el.id, Moves(ps)) == (UpdateElement(s, el.id, ResizeTo(size.0, size.1)), ls)
    decreases |ps|
  {
    var id := s.Elements()[i].id;
    var size0 := ResizeGeometry(cfg, ls.resizeStart, ps[0]);
    var s1 := UpdateElement(s, id, ResizeTo(size0.0, size0.1));
    var size := ResizeGeometry(cfg, ls.resizeStart, ps[|ps| - 1]);
    // Facts about the store and the points come first, so that no run is in scope yet.
    if |ps| == 1 {
      assert Moves(ps[1..]) == [];
    } else {
      assert ps[1..][|ps[1..]| - 1] == ps[|ps| - 1];
      UpdateKeepsFirst(s, i, ResizeTo(size0.0, size0.1));
      ResizeThenResize(s, id, size0.0, size0.1, size.0, size.1);
    }
    ResizeFirstMove(cfg, ls, s, i, ps);
    if |ps| > 1 {
      ResizeMoves(cfg, ls, s1, i, ps[1..]);
    }
  }

  /** A press on an element that is not editing selects it and starts a drag from the
      press position. */
  lemma PressStartsDrag(cfg: Config, s: State, i: nat, p0: Point, rest: seq<Event>)
    requires i < |s.Elements()| && IsFirstWithId(s.Elements(), s.Elements()[i].id, i)
    ensures var id := s.Elements()[i].id;
            Run(cfg, Mounted, s, id, [MouseDown(p0)] + rest)
            == Run(cfg, Mounted.(dragging := true, dragStart := p0, listening := true), SelectElement(s, Some(id)), id, rest)
  {
    var el := s.Elements()[i];
    var id := el.id;
    var evs := [MouseDown(p0)] + rest;
    assert evs[1..] == rest;
    assert [Select(Some(id))][1..] == [];
    assert ReduceAll(s, [Select(Some(id))]) == SelectElement(s, Some(id));
    assert Handle(cfg, Mounted, el, s.selectedElementId == Some(id), MouseDown(p0))
        == (Mounted.(dragging := true, dragStart := p0), [Select(Some(id))]);
    ElementAtFirst(s, i);
    RunFirst(cfg, Mounted, s, id, evs, el);
  }

  /** A release ends whatever gesture was active and leaves the store alone. */
  lemma ReleaseEndsGesture(cfg: Config, ls: Local, s: State, i: nat)
    requires i < |s.Elements()| && IsFirstWithId(s.Elements(), s.Elements()[i].id, i)
    requires ls.listening <==> ls.dragging || ls.resizing
    ensures Run(cfg, ls, s, s.Elements()[i].id, [MouseUp]) == (s, ls.(dragging := false, resizing := false, listening := false))
  {
    var el := s.Elements()[i];
    ElementAtFirst(s, i);
    RunFirst(cfg, ls, s, el.id, [MouseUp], el);
    assert ReduceAll(s, []) == s;
  }

  /** A whole drag gesture (press, moves, release) on an element that is not editing:
      the element is selected and moved by the last pointer position minus the press
      position; afterwards no gesture is active and no listener is attached. */
  lemma DragGesture(cfg: Config, s: State, i: nat, p0: Point, ps: seq<Point>)
    requires i < |s.Elements()| && IsFirstWithId(s.Elements(), s.Elements()[i].id, i)
    requires |ps| > 0
    ensures var el, last := s.Elements()[i], ps[|ps| - 1];
            var to := DragTarget(el.x, el.y, p0, last);
            var (s', ls') := Run(cfg, Mounted, s, el.id, [MouseDown(p0)] + Moves(ps) + [MouseUp]);
            && s' == UpdateElement(SelectElement(s, Some(el.id)), el.id, MoveTo(to.0, to.1))
            && !ls'.dragging && !ls'.resizing && !ls'.listening
  {
    var el := s.Elements()[i];
    var id := el.id;
    var last := ps[|ps| - 1];
    var s1 := SelectElement(s, Some(id));
    var ls1 := Mounted.(dragging := true, dragStart := p0, listening := true);
    var to := DragTarget(el.x, el.y, p0, last);
    var c := MoveTo(to.0, to.1);
    var s2 := UpdateElement(s1, id, c);
    var ls2 := ls1.(dragStart := last);
    assert [MouseDown(p0)] + Moves(ps) + [MouseUp] == [MouseDown(p0)] + (Moves(ps) + [MouseUp]);
    UpdateKeepsFirst(s1, i, c);
    assert HasId(s2.Elements(), id);
    PressStartsDrag(cfg, s, i, p0, Moves(ps) + [MouseUp]);
    DragMoves(cfg, ls1, s1, i, ps);
    RunConcat(cfg, ls1, s1, id, Moves(ps), [MouseUp]);
    ReleaseEndsGesture(cfg, ls2, s2, i);
  }

  /** A run over two event lists is the run over the second from where the first ended,
      as long as the element is still there. */
  lemma {:induction false} RunConcat(cfg: Config, ls: Local, s: State, id: string, a: seq<Event>, b: seq<Event>)
    requires ls.listening <==> ls.dragging || ls.resizing
    ensures var (s1, ls1) := Run(cfg, ls, s, id, a);
            (ls1.listening <==> ls1.dragging || ls1.resizing)
            && (HasId(s1.Elements(), id) ==> Run(cfg, ls, s, id, a + b) == Run(cfg, ls1, s1, id, b))
    decreases |a|
  {
    if |a| == 0 {
      assert a + b == b;
    } else {
      assert (a + b)[0] == a[0];
      assert (a + b)[1..] == a[1..] + b;
      match ElementById(s.Elements(), id)
      case None =>
      case Some(el) =>
        var (ls', acts) := Step(cfg, ls, el, s.selectedElementId == Some(id), a[0]);
        RunConcat(cfg, ls', ReduceAll(s, acts), id, a[1..], b);
    }
  }

  /** Resizing a 200 x 100 text box by (-500, -500) stops at exactly 50 x 30. */
  lemma ResizeClampExample(p: Point)
    ensures ResizeGeometry(TextBox, Snapshot(p.x, p.y, 200.0, 100.0), Point(p.x - 500.0, p.y - 500.0)) == (50.0, 30.0)
  {
  }

  /** A new press after a release starts a fresh drag from the new pointer position. */
  lemma FreshDragAfterRelease(cfg: Config, ls: Local, el: Element, selected: bool, p: Point)
    requires (ls.listening <==> ls.dragging || ls.resizing) && !ls.editing
    ensures var up := Step(cfg, ls, el, selected, MouseUp).0;
            var down := Step(cfg, up, el, selected, MouseDown(p)).0;
            down.dragging && down.dragStart == p && down.listening
  {
  }

  // ---------------------------------------------------------------------------
  // Editing
  // ---------------------------------------------------------------------------

  /** A text element being edited at index `i`: double-click, type `content`, blur. */
  function EditSession(cfg: Config, s: State, i: nat, content: Option<string>): State
    requires i < |s.Elements()|
  {
    var evs := if content.Some? then [DoubleClick, Input(content.value), Blur] else [DoubleClick, Blur];
    Run(cfg, Mounted, s, s.Elements()[i].id, evs).0
  }

  /** What an edit session commits: the element's properties with `text` replaced by the
      surface content at blur, everything else unchanged. */
  lemma {:induction false} EditSessionCommits(cfg: Config, s: State, i: nat, content: Option<string>)
    requires i < |s.Elements()| && IsFirstWithId(s.Elements(), s.Elements()[i].id, i)
    requires cfg.editable
    ensures var el := s.Elements()[i];
            var committed := if content.Some? then content.value else if cfg.loadsSurface then TextOf(el) else "";
            EditSession(cfg, s, i, content)
            == UpdateElement(s, el.id, NoChanges.(properties := Some(WithText(el.properties, committed))))
  {
    var el := s.Elements()[i];
    var id := el.id;
    var sel := s.selectedElementId == Some(id);
    ElementAtFirst(s, i);
    var loaded := if cfg.loadsSurface then TextOf(el) else "";
    var ls1 := Mounted.(editing := true, surface := loaded);
    var committed := if content.Some? then content.value else loaded;
    var ls2 := ls1.(surface := committed);
    var c := NoChanges.(properties := Some(WithText(el.properties, committed)));
    var evs := if content.Some? then [DoubleClick, Input(content.value), Blur] else [DoubleClick, Blur];
    assert Handle(cfg, Mounted, el, sel, DoubleClick) == (ls1, []);
    assert ReduceAll(s, []) == s;
    RunFirst(cfg, Mounted, s, id, evs, el);
    var rest := evs[1..];
    if content.Some? {
      assert Handle(cfg, ls1, el, sel, Input(committed)) == (ls2, []);
      RunFirst(cfg, ls1, s, id, rest, el);
      rest := rest[1..];
    }
    assert rest == [Blur];
    assert Handle(cfg, ls2, el, sel, Blur) == (ls2.(editing := false), [Update(id, c)]);
    RunFirst(cfg, ls2, s, id, rest, el);
    ReduceOneUpdate(s, id, c);
  }

  /** With the surface loaded on entering edit mode, an edit the user does not change
      leaves the store as it was. */
  lemma UnmodifiedEditKeepsText(s: State, i: nat)
    requires i < |s.Elements()| && IsFirstWithId(s.Elements(), s.Elements()[i].id, i)
    requires s.Elements()[i].properties.TextProps?
    ensures EditSession(TextBox, s, i, None) == s
  {
    var el := s.Elements()[i];
    EditSessionCommits(TextBox, s, i, None);
    assert Merge(el, NoChanges.(properties := Some(WithText(el.properties, TextOf(el))))) == el;
    assert s.Elements()[i := el] == s.Elements();
  }

  /** Typing `content` and leaving the box stores `content` as the text and keeps every
      other property of the element. */
  lemma EditStoresContent(s: State, i: nat, content: string)
    requires i < |s.Elements()| && IsFirstWithId(s.Elements(), s.Elements()[i].id, i)
    requires s.Elements()[i].properties.TextProps?
    ensures var el := s.Elements()[i];
            EditSession(TextBox, s, i, Some(content)).Elements()
            == s.Elements()[i := el.(properties := TextProps(el.properties.textProps.(text := content)))]
  {
    EditSessionCommits(TextBox, s, i, Some(content));
  }

  /** canvas/TextBox as written: double-click then blur, without typing, stores an empty
      text, losing whatever the box said. */
  lemma AsWrittenEditClearsText(s: State, i: nat)
    requires i < |s.Elements()| && IsFirstWithId(s.Elements(), s.Elements()[i].id, i)
    requires s.Elements()[i].properties.TextProps?
    ensures var r := EditSession(CanvasTextBoxAsWritten, s, i, None);
            i < |r.Elements()| && TextOf(r.Elements()[i]) == ""
            && (TextOf(s.Elements()[i]) != "" ==> r != s)
  {
    EditSessionCommits(CanvasTextBoxAsWritten, s, i, None);
  }

  /** The image element never enters edit mode. */
  lemma ImageNeverEdits(ls: Local, el: Element, selected: bool, ev: Event)
    requires (ls.listening <==> ls.dragging || ls.resizing) && !ls.editing
    ensures !Step(ImageElement, ls, el, selected, ev).0.editing
  {
  }
}

=== FILE: excel_slice.dfy ===
/**
  The spreadsheet store: the parsed columns and rows of the uploaded sheet and the
  mapping from placeholder field names to column names. Parsing the sheet happens
  elsewhere; rows arrive here as records. Cell values are kept in their string form,
  the form in which substitution inserts them.
*/
module ExcelSlice {

  /** One record: column name to cell value. A missing key is a `null`/`undefined` cell. */
  type Row = map<string, string>

  /** Placeholder field name to column name. */
  type Mapping = map<string, string>

  datatype ExcelState = ExcelState(mapping: Mapping, columns: seq<string>, rows: seq<Row>)

  const InitialExcel: ExcelState := ExcelState(map[], [], [])

  /** `setExcelData`: replaces columns and rows. */
  function SetExcelData(s: ExcelState, columns: seq<string>, rows: seq<Row>): (r: ExcelState)
    ensures r.columns == columns && r.rows == rows
    ensures r.mapping == s.mapping
  {
    s.(columns := columns, rows := rows)
  }

  /** `setMapping`: replaces the mapping. */
  function SetMapping(s: ExcelState, mapping: Mapping): (r: ExcelState)
    ensures r.mapping == mapping
    ensures r.columns == s.columns && r.rows == s.rows
  {
    s.(mapping := mapping)
  }

  /** `clearExcel`: back to the empty store. */
  function ClearExcel(s: ExcelState): (r: ExcelState)
    ensures r.mapping == map[] && r.columns == [] && r.rows == []
  {
    InitialExcel
  }

  /** Clearing forgets everything: it is idempotent and undoes any load or mapping. */
  lemma ClearForgets(s: ExcelState, columns: seq<string>, rows: seq<Row>, m: Mapping)
    ensures ClearExcel(ClearExcel(s)) == ClearExcel(s)
    ensures ClearExcel(SetMapping(SetExcelData(s, columns, rows), m)) == InitialExcel
  {
  }

  /** Loading data and setting the mapping touch disjoint fields, so they commute. */
  lemma DataAndMappingCommute(s: ExcelState, columns: seq<string>, rows: seq<Row>, m: Mapping)
    ensures SetMapping(SetExcelData(s, columns, rows), m) == SetExcelData(SetMapping(s, m), columns, rows)
  {
  }
}

=== FILE: konva_canvas.dfy ===
/**
  The Konva canvas: elements are dragged and resized by Konva itself, and the canvas
  only sees the end of each gesture (drag end, transform end), a guard that Konva asks
  about every intermediate box, and the text-editing overlay (double-click opens a
  textarea over the text, blur commits it, a press on the background abandons it).
*/
module KonvaCanvas {
  import opened Wrappers
  import opened TemplateModel
  import opened TemplateSlice

  /** Smallest box an image may be transformed to. */
  const IMAGE_MIN_WIDTH: real := 30.0
  const IMAGE_MIN_HEIGHT: real := 30.0

  function MinWidth(t: ElementType): real {
    match t
    case TextType => TEXT_MIN_WIDTH
    case ImageType => IMAGE_MIN_WIDTH
  }

  function MinHeight(t: ElementType): real {
    match t
    case TextType => TEXT_MIN_HEIGHT
    case ImageType => IMAGE_MIN_HEIGHT
  }

  /** A box as the transformer proposes it. */
  datatype Box = Box(x: real, y: real, width: real, height: real, rotation: real)

  predicate FitsMinimum(t: ElementType, b: Box) {
    b.width >= MinWidth(t) && b.height >= MinHeight(t)
  }

  /** `boundBoxFunc`: an undersized proposal is refused and the previous box kept. */
  function BoundBox(t: ElementType, oldBox: Box, newBox: Box): (r: Box)
    ensures FitsMinimum(t, newBox) ==> r == newBox
    ensures !FitsMinimum(t, newBox) ==> r == oldBox
  {
    if newBox.width < MinWidth(t) || newBox.height < MinHeight(t) then oldBox else newBox
  }

  /** The boxes the transformer shows while a handle is dragged through `proposals`. */
  function Transforming(t: ElementType, start: Box, proposals: seq<Box>): Box
    decreases |proposals|
  {
    if |proposals| == 0 then start
    else Transforming(t, BoundBox(t, start, proposals[0]), proposals[1..])
  }

  /** A transform that starts at an acceptable box never shows an undersized one. */
  lemma {:induction false} TransformingKeepsMinimum(t: ElementType, start: Box, proposals: seq<Box>)
    requires FitsMinimum(t, start)
    ensures FitsMinimum(t, Transforming(t, start, proposals))
    decreases |proposals|
  {
    if |proposals| > 0 {
      TransformingKeepsMinimum(t, BoundBox(t, start, proposals[0]), proposals[1..]);
    }
  }

  /** The shape node when a gesture ends: its position and the scale the transformer applied. */
  datatype Node = Node(x: real, y: real, scaleX: real, scaleY: real)

  /** `onDragEnd`: the element with the node's position. */
  function DragEnd(el: Element, node: Node): (r: Element) {
    el.(x := node.x, y := node.y)
  }

  /** `onTransformEnd`: the scale is folded into the size, clamped to the type's minimum. */
  function TransformEnd(el: Element, node: Node): (r: Element)
    ensures r.id == el.id && r.Type() == el.Type() && r.properties == el.properties && r.zindex == el.zindex
    ensures r.x == node.x && r.y == node.y
    ensures r.width >= MinWidth(el.Type()) && r.height >= MinHeight(el.Type())
    ensures r.width >= el.width * node.scaleX && r.height >= el.height * node.scaleY
    ensures (r.width == MinWidth(el.Type()) || r.width == el.width * node.scaleX)
         && (r.height == MinHeight(el.Type()) || r.height == el.height * node.scaleY)
  {
    el.(x := node.x, y := node.y,
        width := Max(MinWidth(el.Type()), el.width * node.scaleX),
        height := Max(MinHeight(el.Type()), el.height * node.scaleY))
  }

  /** `handleChange`: the whole element is dispatched as the changes. */
  function OnChange(updated: Element): Action {
    Update(updated.id, AllOf(updated))
  }

  /** A drag end stored through `updateElement` moves the element and changes nothing else. */
  lemma DragEndMovesOnly(s: State, i: nat, node: Node)
    requires i < |s.Elements()| && IsFirstWithId(s.Elements(), s.Elements()[i].id, i)
    ensures var el := s.Elements()[i];
            Reduce(s, OnChange(DragEnd(el, node))).Elements() == s.Elements()[i := el.(x := node.x, y := node.y)]
  {
  }

  /** A transform end stored through `updateElement` changes only the element's box, and
      leaves it at least the minimum size. */
  lemma TransformEndResizesOnly(s: State, i: nat, node: Node)
    requires i < |s.Elements()| && IsFirstWithId(s.Elements(), s.Elements()[i].id, i)
    ensures var el := s.Elements()[i];
            var r := Reduce(s, OnChange(TransformEnd(el, node)));
            && |r.Elements()| == |s.Elements()|
            && r.Elements()[i] == el.(x := r.Elements()[i].x, y := r.Elements()[i].y,
                                       width := r.Elements()[i].width, height := r.Elements()[i].height)
            && r.Elements()[i].width >= MinWidth(el.Type()) && r.Elements()[i].height >= MinHeight(el.Type())
            && forall j :: 0 <= j < |s.Elements()| && j != i ==> r.Elements()[j] == s.Elements()[j]
  {
  }

  // ---------------------------------------------------------------------------
  // Text editing overlay
  // ---------------------------------------------------------------------------

  /** `isEditing`, `editingElement`, `editingText`. */
  datatype EditState = EditState(isEditing: bool, editingElement: Option<Element>, editingText: string)

  const NotEditing: EditState := EditState(false, None, "")

  /** Editing and a snapshot go together; outside editing everything is cleared. */
  predicate EditConsistent(es: EditState) {
    if es.isEditing then es.editingElement.Some? else es == NotEditing
  }

  /** `handleTextDblClick`: opens the overlay on a snapshot of the element, with its text
      as the buffer; nothing happens while the element has no shape on the stage. */
  function TextDblClick(es: EditState, el: Element, hasShape: bool): (r: EditState)
    ensures !hasShape ==> r == es
    ensures hasShape ==> r.isEditing && r.editingElement == Some(el) && r.editingText == TextOf(el)
  {
    if !hasShape then es else EditState(true, Some(el), TextOf(el))
  }

  /** Typing in the textarea (it exists only while editing). */
  function TextareaInput(es: EditState, value: string): (r: EditState)
    ensures es.isEditing ==> r == es.(editingText := value)
    ensures !es.isEditing ==> r == es
  {
    if es.isEditing then es.(editingText := value) else es
  }

  /** `handleTextareaBlur`: the snapshot with the buffer as its text is dispatched as
      changes, then the overlay is cleared. */
  function TextareaBlur(es: EditState): (r: (EditState, seq<Action>))
    ensures r.0 == NotEditing
    ensures es.editingElement.None? ==> r.1 == []
    ensures es.editingElement.Some? ==>
              var e := es.editingElement.value;
              r.1 == [Update(e.id, AllOf(e.(properties := WithText(e.properties, es.editingText))))]
  {
    match es.editingElement
    case None => (NotEditing, [])
    case Some(e) => (NotEditing, [OnChange(e.(properties := WithText(e.properties, es.editingText)))])
  }

  /** What a press on the stage landed on. */
  datatype Target = Target(isStage: bool, className: string, parentClassName: Option<string>)

  /** Only the stage itself or the background rectangle deselect, never a shape or a part
      of the transformer. */
  predicate Deselects(t: Target) {
    var isStage := t.isStage;
    var isBackground := t.className == "Rect";
    var isTransformer := t.parentClassName == Some("Transformer");
    var isShape := t.className == "Text" || t.className == "Image";
    (isStage || isBackground) && !isTransformer && !isShape
  }

  /** `handleStageMouseDown`: on the background, drops any edit without committing it and
      clears the selection. */
  function StageMouseDown(es: EditState, t: Target): (r: (EditState, seq<Action>))
    ensures Deselects(t) ==> r.1 == [Select(None)] && (es.isEditing ==> r.0 == NotEditing)
    ensures Deselects(t) && !es.isEditing ==> r.0 == es
    ensures !Deselects(t) ==> r == (es, [])
  {
    if Deselects(t) then (if es.isEditing then NotEditing else es, [Select(None)]) else (es, [])
  }

  /** Every overlay event keeps editing and snapshot together. */
  lemma EditEventsKeepConsistency(es: EditState, el: Element, hasShape: bool, value: string, t: Target)
    requires EditConsistent(es)
    ensures EditConsistent(TextDblClick(es, el, hasShape))
    ensures EditConsistent(TextareaInput(es, value))
    ensures EditConsistent(TextareaBlur(es).0)
    ensures EditConsistent(StageMouseDown(es, t).0)
  {
  }

  /** Double-click, typing `value`, blur: the element stored at `i` gets `value` as its
      text; the rest of the snapshot (and every other element) is unchanged. With the
      text left as it was, the element is unchanged. */
  lemma EditCommitsBuffer(s: State, i: nat, es: EditState, value: string)
    requires i < |s.Elements()| && IsFirstWithId(s.Elements(), s.Elements()[i].id, i)
    requires s.Elements()[i].properties.TextProps?
    ensures var el := s.Elements()[i];
            var editing := TextareaInput(TextDblClick(es, el, true), value);
            var (closed, acts) := TextareaBlur(editing);
            var r := ReduceAll(s, acts);
            && closed == NotEditing
            && r.Elements() == s.Elements()[i := el.(properties := TextProps(el.properties.textProps.(text := value)))]
            && r.selectedElementId == s.selectedElementId
            && (value == TextOf(el) ==> r == s)
  {
    var el := s.Elements()[i];
    var e' := el.(properties := TextProps(el.properties.textProps.(text := value)));
    var acts := TextareaBlur(TextareaInput(TextDblClick(es, el, true), value)).1;
    assert acts == [OnChange(e')];
    assert ReduceAll(s, acts) == Reduce(s, OnChange(e'));
    if value == TextOf(el) {
      assert e' == el;
      assert s.Elements()[i := el] == s.Elements();
    }
  }

  /** A press on the background while editing commits nothing: the only action is the
      deselection, so every element keeps its text. */
  lemma BackgroundDiscardsEdit(s: State, es: EditState, t: Target)
    requires es.isEditing && Deselects(t)
    ensures var (es', acts) := StageMouseDown(es, t);
            var r := ReduceAll(s, acts);
            && es' == NotEditing
            && r.currentTemplate == s.currentTemplate
            && r.selectedElementId == None
  {
    var acts := StageMouseDown(es, t).1;
    assert ReduceAll(s, acts) == SelectElement(s, None);
  }

  /** Presses on a text or image shape never deselect. */
  lemma ShapesKeepSelection(es: EditState, t: Target)
    requires t.className == "Text" || t.className == "Image"
    ensures StageMouseDown(es, t) == (es, [])
  {
  }
}

=== FILE: placeholder.dfy ===
/**
  Placeholder substitution. Both call sites scan text with the global pattern
  `{(.*?)}`: at a `{`, the token runs to the nearest `}` reached without crossing a
  line terminator (JavaScript's `.` matches anything else, including `{`); the field
  between the braces may be empty. If a line terminator or the end of the text comes
  first, that `{` is ordinary text and scanning resumes after it. Replacement text is
  never scanned again.

  The scan is a tokenizer producing literal characters and tokens; the two call
  sites differ only in what they put in place of a token.
*/
module Placeholder {
  import opened Wrappers
  import opened ExcelSlice

  /** The characters JavaScript's `.` does not match. */
  predicate IsLineTerminator(c: char) {
    c == '\n' || c == '\r' || c == '\U{2028}' || c == '\U{2029}'
  }

  /** A character that may appear between the braces of a token. */
  predicate InField(c: char) {
    c != '}' && !IsLineTerminator(c)
  }

  ghost predicate WellFormedField(f: string) {
    forall j :: 0 <= j < |f| ==> InField(f[j])
  }

  /** The first `k` characters of `s` can all lie inside a token. */
  ghost predicate OpenRun(s: string, k: int) {
    0 <= k <= |s| && forall j :: 0 <= j < k ==> InField(s[j])
  }

  /** Offset in `s` of the `}` that ends the shortest match, if one exists. */
  function FindClose(s: string): (r: Option<nat>)
    ensures r.Some? ==> r.value < |s| && s[r.value] == '}' && OpenRun(s, r.value)
    ensures r.None? ==> forall k :: OpenRun(s, k) && k < |s| ==> s[k] != '}'
    decreases |s|
  {
    if |s| == 0 || IsLineTerminator(s[0]) then None
    else if s[0] == '}' then Some(0)
    else
      match FindClose(s[1..])
      case Some(k) => Some(k + 1)
      case None =>
        assert forall k :: OpenRun(s, k) && 0 < k ==> OpenRun(s[1..], k - 1);
        None
  }

  datatype Segment = Literal(c: char) | Token(field: string)

  /** The tokenizer: one left-to-right pass over the text. */
  function Scan(s: string): (segs: seq<Segment>)
    ensures forall i :: 0 <= i < |segs| && segs[i].Token? ==> WellFormedField(segs[i].field)
    decreases |s|
  {
    if |s| == 0 then []
    else if s[0] == '{' then
      match FindClose(s[1..])
      case Some(k) => [Token(s[1..k + 1])] + Scan(s[k + 2..])
      case None => [Literal('{')] + Scan(s[1..])
    else [Literal(s[0])] + Scan(s[1..])
  }

  /** Rebuilds text from segments, putting `value(field)` where each token was. */
  function Expand(segs: seq<Segment>, value: string -> string): string
    decreases |segs|
  {
    if |segs| == 0 then ""
    else
      (match segs[0]
       case Literal(c) => [c]
       case Token(f) => value(f)) + Expand(segs[1..], value)
  }

  /** The token spelled out again: `{field}`. */
  function Braced(f: string): string {
    "{" + f + "}"
  }

  /** The value `replaceFields` puts in place of `{field}`: the row's cell in the mapped
      column; an empty string when the cell is missing, when the field has no mapping,
      or when it maps to the empty column name. */
  function FieldValue(mapping: Mapping, row: Row, field: string): string {
    if field in mapping && mapping[field] != "" then
      if mapping[field] in row then row[mapping[field]] else ""
    else ""
  }

  /** `replaceFields`: the text unchanged when the mapping or the row is absent. */
  function ReplaceFields(text: string, mapping: Option<Mapping>, row: Option<Row>): (r: string)
    ensures mapping.None? || row.None? ==> r == text
  {
    if mapping.None? || row.None? then text
    else Expand(Scan(text), (f: string) => FieldValue(mapping.value, row.value, f))
  }

  /** The value `getDisplayText` puts in place of `{field}`: the preview value, or the
      token itself when the preview data has no such field. */
  function PreviewValue(preview: map<string, string>, field: string): string {
    if field in preview then preview[field] else Braced(field)
  }

  /** `getDisplayText`: the text unchanged outside preview mode or without preview data. */
  function DisplayText(text: string, isPreview: bool, previewData: Option<map<string, string>>): (r: string)
    ensures !isPreview || previewData.None? ==> r == text
  {
    if !isPreview || previewData.None? then text
    else Expand(Scan(text), (f: string) => PreviewValue(previewData.value, f))
  }

  // ---------------------------------------------------------------------------
  // Properties of the scanner
  // ---------------------------------------------------------------------------

  lemma {:induction false} ExpandConcat(a: seq<Segment>, b: seq<Segment>, value: string -> string)
    ensures Expand(a + b, value) == Expand(a, value) + Expand(b, value)
    decreases |a|
  {
    if |a| == 0 {
      assert a + b == b;
    } else {
      assert (a + b)[0] == a[0];
      assert (a + b)[1..] == a[1..] + b;
      ExpandConcat(a[1..], b, value);
    }
  }

  /** Expansion only consults the value of fields that occur as tokens. */
  lemma {:induction false} ExpandAgrees(segs: seq<Segment>, v: string -> string, w: string -> string)
    requires forall i :: 0 <= i < |segs| && segs[i].Token? ==> v(segs[i].field) == w(segs[i].field)
    ensures Expand(segs, v) == Expand(segs, w)
    decreases |segs|
  {
    if |segs| > 0 {
      assert forall i :: 0 <= i < |segs[1..]| ==> segs[1..][i] == segs[i + 1];
      ExpandAgrees(segs[1..], v, w);
    }
  }

  /** Spelling every token out again gives back the scanned text: scanning loses nothing. */
  lemma {:induction false} ScanRoundTrip(s: string)
    ensures Expand(Scan(s), Braced) == s
    decreases |s|
  {
    if |s| > 0 {
      var n := ScanStep(s, Braced);
      ScanRoundTrip(s[n..]);
      if n == 1 {
        assert s == [s[0]] + s[n..];
      } else {
        BracedSplit(s, n);
      }
    }
  }

  /** A text that starts with a `{`...`}` of `n` characters is that token followed by the rest. */
  lemma BracedSplit(s: string, n: nat)
    requires 2 <= n <= |s| && s[0] == '{' && s[n - 1] == '}'
    ensures s == Braced(s[1..n - 1]) + s[n..]
  {
    var t := Braced(s[1..n - 1]) + s[n..];
    assert |t| == |s|;
    forall i | 0 <= i < |s| ensures s[i] == t[i] {
      if i == 0 {
      } else if i < n - 1 {
        assert t[i] == s[1..n - 1][i - 1];
      } else if i == n - 1 {
      } else {
        assert t[i] == s[n..][i - n];
      }
    }
  }

  /** One step of the scanner: either the first character is literal text, or a token
      `{field}` of `n` characters starts the text. */
  lemma ScanStep(s: string, value: string -> string) returns (n: nat)
    requires |s| > 0
    ensures 1 <= n <= |s|
    ensures n == 1 ==> Expand(Scan(s), value) == [s[0]] + Expand(Scan(s[1..]), value)
    ensures n > 1 ==> n >= 2 && s[0] == '{' && s[n - 1] == '}'
                      && Expand(Scan(s), value) == value(s[1..n - 1]) + Expand(Scan(s[n..]), value)
  {
    if s[0] == '{' && FindClose(s[1..]).Some? {
      var k := FindClose(s[1..]).value;
      n := k + 2;
      assert Scan(s) == [Token(s[1..n - 1])] + Scan(s[n..]);
      ExpandConcat([Token(s[1..n - 1])], Scan(s[n..]), value);
    } else {
      n := 1;
      assert Scan(s) == [Literal(s[0])] + Scan(s[1..]);
      ExpandConcat([Literal(s[0])], Scan(s[1..]), value);
    }
  }

  /** Text without `{` scans to literals only. */
  lemma {:induction false} ScanNoOpen(a: string, b: string)
    requires '{' !in a
    ensures Scan(a + b) == seq(|a|, i requires 0 <= i < |a| => Literal(a[i])) + Scan(b)
    decreases |a|
  {
    if |a| == 0 {
      assert a + b == b;
    } else {
      assert (a + b)[0] == a[0];
      assert (a + b)[1..] == a[1..] + b;
      assert '{' !in a[1..] by {
        forall j | 0 <= j < |a[1..]| ensures a[1..][j] != '{' {
          assert a[1..][j] == a[j + 1];
        }
      }
      ScanNoOpen(a[1..], b);
    }
  }

  /** A well-formed `{field}` scans to one token, and scanning goes on right after it. */
  lemma ScanToken(f: string, b: string)
    requires WellFormedField(f)
    ensures Scan(Braced(f) + b) == [Token(f)] + Scan(b)
  {
    var s := Braced(f) + b;
    assert s[0] == '{';
    assert s[1..] == f + "}" + b;
    var k := |f|;
    assert s[1..][k] == '}';
    assert OpenRun(s[1..], k);
    assert FindClose(s[1..]) == Some(k);
    assert s[1..k + 1] == f;
    assert s[k + 2..] == b;
  }

  /** A `{` with no `}` before the next line terminator (or the end) is plain text, and
      scanning resumes at the very next character, so a later `{` can still open a token. */
  lemma ScanUnclosed(b: string)
    requires FindClose(b).None?
    ensures Scan("{" + b) == [Literal('{')] + Scan(b)
  {
    assert ("{" + b)[1..] == b;
  }

  /** Any character other than `{` is plain text, and scanning goes on with the next one. */
  lemma ScanOther(c: char, b: string)
    requires c != '{'
    ensures Scan([c] + b) == [Literal(c)] + Scan(b)
  {
    assert ([c] + b)[1..] == b;
  }

  /** Text before the first `{` is copied verbatim, a well-formed token is replaced by its
      field's value, and substitution continues after the token: a single left-to-right
      pass. */
  lemma ExpandTokenAfterText(a: string, f: string, b: string, value: string -> string)
    requires '{' !in a && WellFormedField(f)
    ensures Expand(Scan(a + Braced(f) + b), value) == a + value(f) + Expand(Scan(b), value)
  {
    var lits := seq(|a|, i requires 0 <= i < |a| => Literal(a[i]));
    ScanNoOpen(a, Braced(f) + b);
    assert a + Braced(f) + b == a + (Braced(f) + b);
    ScanToken(f, b);
    ExpandConcat(lits, [Token(f)] + Scan(b), value);
    ExpandConcat([Token(f)], Scan(b), value);
    LiteralsExpand(a, value);
  }

  lemma {:induction false} LiteralsExpand(a: string, value: string -> string)
    ensures Expand(seq(|a|, i requires 0 <= i < |a| => Literal(a[i])), value) == a
    decreases |a|
  {
    if |a| > 0 {
      var lits := seq(|a|, i requires 0 <= i < |a| => Literal(a[i]));
      assert lits[1..] == seq(|a[1..]|, i requires 0 <= i < |a[1..]| => Literal(a[1..][i]));
      LiteralsExpand(a[1..], value);
      assert a == [a[0]] + a[1..];
    }
  }

  /** `replaceFields` on `a{field}b`: the token's value replaces it, even when that value
      is itself a token; text around it is unchanged. */
  lemma ReplaceFieldsToken(a: string, f: string, b: string, mapping: Mapping, row: Row)
    requires '{' !in a && WellFormedField(f)
    ensures ReplaceFields(a + Braced(f) + b, Some(mapping), Some(row))
            == a + FieldValue(mapping, row, f) + ReplaceFields(b, Some(mapping), Some(row))
  {
    ExpandTokenAfterText(a, f, b, (g: string) => FieldValue(mapping, row, g));
  }

  /** `getDisplayText` on `a{field}b`: the preview value, or `{field}` itself when the
      preview data lacks the field. */
  lemma DisplayTextToken(a: string, f: string, b: string, preview: map<string, string>)
    requires '{' !in a && WellFormedField(f)
    ensures DisplayText(a + Braced(f) + b, true, Some(preview))
            == a + (if f in preview then preview[f] else Braced(f)) + DisplayText(b, true, Some(preview))
  {
    ExpandTokenAfterText(a, f, b, (g: string) => PreviewValue(preview, g));
  }

  /** Preview text is the stored text whenever the preview data names none of its fields;
      in particular empty preview data changes nothing. */
  lemma DisplayTextUnknownFields(text: string, preview: map<string, string>)
    requires forall i :: 0 <= i < |Scan(text)| && Scan(text)[i].Token? ==> Scan(text)[i].field !in preview
    ensures DisplayText(text, true, Some(preview)) == text
  {
    ExpandAgrees(Scan(text), (f: string) => PreviewValue(preview, f), Braced);
    ScanRoundTrip(text);
  }

  /** With no mapping entries every token is blanked, not left in place. */
  lemma ReplaceFieldsEmptyMapping(a: string, f: string, b: string, row: Row)
    requires '{' !in a && WellFormedField(f)
    ensures ReplaceFields(a + Braced(f) + b, Some(map[]), Some(row))
            == a + ReplaceFields(b, Some(map[]), Some(row))
  {
    ReplaceFieldsToken(a, f, b, map[], row);
  }

  // ---------------------------------------------------------------------------
  // Replacement text is not scanned again
  // ---------------------------------------------------------------------------

  ghost predicate NoTokens(segs: seq<Segment>) {
    forall i :: 0 <= i < |segs| ==> segs[i].Literal?
  }

  /** Text with no `}` before its first line terminator keeps that property through
      substitution, so a `{` just before it stays unclosable: expansion changes nothing
      up to the line terminator (or end) that stopped the search. */
  lemma {:induction false} UnclosedStaysUnclosed(t: string, value: string -> string)
    requires FindClose(t).None?
    ensures FindClose(Expand(Scan(t), value)).None?
    decreases |t|
  {
    if |t| > 0 {
      var out := Expand(Scan(t), value);
      if IsLineTerminator(t[0]) {
        assert out[0] == t[0];
      } else {
        assert t[0] != '}';
        assert FindClose(t[1..]).None?;
        if t[0] == '{' {
          assert FindClose(t[1..]) == None;
        }
        assert Scan(t) == [Literal(t[0])] + Scan(t[1..]);
        var rest := Expand(Scan(t[1..]), value);
        assert out == [t[0]] + rest;
        UnclosedStaysUnclosed(t[1..], value);
        assert out[1..] == rest;
      }
    }
  }

  /** When no value contains `{`, the expanded text holds no tokens at all. */
  lemma {:induction false} ExpandLeavesNoTokens(s: string, value: string -> string)
    requires forall f :: '{' !in value(f)
    ensures NoTokens(Scan(Expand(Scan(s), value)))
    decreases |s|
  {
    if |s| > 0 {
      if s[0] == '{' {
        match FindClose(s[1..])
        case Some(k) =>
          var f := s[1..k + 1];
          var rest := Expand(Scan(s[k + 2..]), value);
          assert Expand(Scan(s), value) == value(f) + rest;
          ScanNoOpen(value(f), rest);
          ExpandLeavesNoTokens(s[k + 2..], value);
        case None =>
          var rest := Expand(Scan(s[1..]), value);
          assert Expand(Scan(s), value) == "{" + rest;
          UnclosedStaysUnclosed(s[1..], value);
          assert ("{" + rest)[1..] == rest;
          ExpandLeavesNoTokens(s[1..], value);
      } else {
        var rest := Expand(Scan(s[1..]), value);
        assert Expand(Scan(s), value) == [s[0]] + rest;
        assert ([s[0]] + rest)[1..] == rest;
        ExpandLeavesNoTokens(s[1..], value);
      }
    }
  }

  /** Substituting twice is substituting once, when no cell value contains `{`. */
  lemma ReplaceFieldsIdempotent(text: string, mapping: Mapping, row: Row)
    requires forall c :: c in row ==> '{' !in row[c]
    ensures ReplaceFields(ReplaceFields(text, Some(mapping), Some(row)), Some(mapping), Some(row))
            == ReplaceFields(text, Some(mapping), Some(row))
  {
    var v := (f: string) => FieldValue(mapping, row, f);
    var out := Expand(Scan(text), v);
    ExpandLeavesNoTokens(text, v);
    ExpandAgrees(Scan(out), v, Braced);
    ScanRoundTrip(out);
  }

  /** "Hi {name}" is literal text followed by one token. */
  lemma HiNameSplits()
    ensures "Hi {name}" == "Hi " + Braced("name") + ""
  {
  }

  /** The "Hi {name}" example: one row, one mapped field. */
  lemma HiNameExample()
    ensures ReplaceFields("Hi {name}", Some(map["name" := "Col1"]), Some(map["Col1" := "Ana"])) == "Hi Ana"
  {
    var m, r := map["name" := "Col1"], map["Col1" := "Ana"];
    assert "Hi " + FieldValue(m, r, "name") + ReplaceFields("", Some(m), Some(r)) == "Hi Ana" by {
      assert FieldValue(m, r, "name") == "Ana";
      assert ReplaceFields("", Some(m), Some(r)) == "";
      assert "Hi " + "Ana" + "" == "Hi Ana";
    }
    HiNameSplits();
    ReplaceFieldsToken("Hi ", "name", "", m, r);
  }

  /** Without a mapping for `name` the token is blanked, not kept. */
  lemma HiNameUnmappedExample()
    ensures ReplaceFields("Hi {name}", Some(map[]), Some(map["Col1" := "Ana"])) == "Hi "
  {
    HiNameSplits();
    ReplaceFieldsToken("Hi ", "name", "", map[], map["Col1" := "Ana"]);
  }

  /** The preview with no data shows the token itself. */
  lemma HiNamePreviewExample()
    ensures DisplayText("Hi {name}", true, Some(map[])) == "Hi {name}"
  {
    HiNameSplits();
    DisplayTextToken("Hi ", "name", "", map[]);
  }
}

=== FILE: template_model.dfy ===
/**
  The element model of a certificate template: a template is an ordered list of
  positioned text and image blocks. The source keeps `type` and `properties` as two
  separate fields (an untagged union); here the properties are a sum type and the
  element type is read off its variant, so the two can never disagree.
*/
module TemplateModel {

  /** Logical size of the A4 canvas, in pixels. */
  const A4_WIDTH: real := 1123.0
  const A4_HEIGHT: real := 794.0

  /** Smallest box a text element may be resized to. */
  const TEXT_MIN_WIDTH: real := 50.0
  const TEXT_MIN_HEIGHT: real := 30.0

  /** Clock readings (`new Date()`) are abstract instants. */
  type Time = int

  datatype Alignment = Left | Center | Right

  datatype TextProperties = TextProperties(
    text: string,
    fontSize: real,
    fontFamily: string,
    fontWeight: string,
    color: string,
    backgroundColor: string,
    alignment: Alignment)

  datatype ImageProperties = ImageProperties(src: string, opacity: real)

  /** The variant of `properties` chosen by the element's type. */
  datatype Properties =
    | TextProps(textProps: TextProperties)
    | ImageProps(imageProps: ImageProperties)

  datatype ElementType = ImageType | TextType

  datatype Element = Element(
    id: string,
    x: real,
    y: real,
    width: real,
    height: real,
    zindex: int,
    properties: Properties)
  {
    /** The element's `type` field. */
    function Type(): ElementType {
      if properties.TextProps? then TextType else ImageType
    }
  }

  datatype Template = Template(
    id: string,
    name: string,
    createdAt: Time,
    updatedAt: Time,
    description: string,
    elements: seq<Element>)

  /** The string spelling of an element type, as stored in the source. */
  function TypeName(e: Element): (name: string)
    ensures name == "image" || name == "text"
    ensures name == "text" <==> e.properties.TextProps?
  {
    match e.Type()
    case TextType => "text"
    case ImageType => "image"
  }

  /** `textProps.text ?? ''`: the text shown by an element; image elements have none. */
  function TextOf(e: Element): string {
    match e.properties
    case TextProps(t) => t.text
    case ImageProps(_) => ""
  }

  /** `{ ...properties, text }` on the text variant; image properties have no text. */
  function WithText(p: Properties, text: string): (r: Properties)
    ensures r.TextProps? <==> p.TextProps?
    ensures p.TextProps? ==> r.textProps == p.textProps.(text := text)
    ensures p.ImageProps? ==> r == p
  {
    match p
    case TextProps(t) => TextProps(t.(text := text))
    case ImageProps(_) => p
  }

  /** `Math.max`. */
  function Max(a: real, b: real): (m: real)
    ensures m >= a && m >= b
    ensures m == a || m == b
  {
    if a >= b then a else b
  }

  /** `Math.min`. */
  function Min(a: real, b: real): (m: real)
    ensures m <= a && m <= b
    ensures m == a || m == b
  {
    if a <= b then a else b
  }

  /** The A4 canvas is wider than it is tall. */
  lemma A4IsLandscape()
    ensures A4_WIDTH > A4_HEIGHT
  {
  }

  /** Ids appear at most once in a list of elements. */
  ghost predicate UniqueElementIds(els: seq<Element>) {
    forall i, j :: 0 <= i < j < |els| ==> els[i].id != els[j].id
  }
}

=== FILE: template_slice.dfy ===
/**
  The template store: the template being edited, the list of saved templates and
  the id of the selected element, with the reducers that change them. Each reducer
  is a pure function from the old state to the new one.
*/
module TemplateSlice {
  import opened Wrappers
  import opened TemplateModel

  datatype State = State(
    currentTemplate: Template,
    templates: seq<Template>,
    selectedElementId: Option<string>)
  {
    function Elements(): seq<Element> {
      currentTemplate.elements
    }
  }

  /** A `Partial<TemplateElement>`: every field is optional. Because the element
      type is carried by the properties variant, `type` travels with `properties`. */
  datatype Changes = Changes(
    id: Option<string>,
    x: Option<real>,
    y: Option<real>,
    width: Option<real>,
    height: Option<real>,
    zindex: Option<int>,
    properties: Option<Properties>)

  const NoChanges: Changes := Changes(None, None, None, None, None, None, None)

  /** `Object.assign(element, changes)`: a shallow merge, so a present `properties`
      replaces the old one wholesale. */
  function Merge(e: Element, c: Changes): Element {
    Element(
      c.id.GetOr(e.id),
      c.x.GetOr(e.x),
      c.y.GetOr(e.y),
      c.width.GetOr(e.width),
      c.height.GetOr(e.height),
      c.zindex.GetOr(e.zindex),
      c.properties.GetOr(e.properties))
  }

  /** A whole element passed as `changes` (what the canvas does on drag and transform end). */
  function AllOf(e: Element): Changes {
    Changes(Some(e.id), Some(e.x), Some(e.y), Some(e.width), Some(e.height), Some(e.zindex), Some(e.properties))
  }

  /** Changes that move an element. */
  function MoveTo(x: real, y: real): Changes {
    NoChanges.(x := Some(x), y := Some(y))
  }

  /** Changes that resize an element. */
  function ResizeTo(width: real, height: real): Changes {
    NoChanges.(width := Some(width), height := Some(height))
  }

  /** Applying `first` then `second`: fields of `second` win. */
  function Then(first: Changes, second: Changes): Changes {
    Changes(
      if second.id.Some? then second.id else first.id,
      if second.x.Some? then second.x else first.x,
      if second.y.Some? then second.y else first.y,
      if second.width.Some? then second.width else first.width,
      if second.height.Some? then second.height else first.height,
      if second.zindex.Some? then second.zindex else first.zindex,
      if second.properties.Some? then second.properties else first.properties)
  }

  /** Changes that leave the id alone (or set it to the id it already has). */
  predicate KeepsId(c: Changes, id: string) {
    c.id.None? || c.id == Some(id)
  }

  /** Array `findIndex`: the first position whose entry satisfies `matches`. */
  function FindIndex<T>(s: seq<T>, matches: T -> bool): (r: Option<nat>)
    ensures r.Some? ==> r.value < |s| && matches(s[r.value])
    ensures r.Some? ==> forall j :: 0 <= j < r.value ==> !matches(s[j])
    ensures r.None? ==> forall j :: 0 <= j < |s| ==> !matches(s[j])
  {
    if |s| == 0 then None
    else if matches(s[0]) then Some(0)
    else
      match FindIndex(s[1..], matches)
      case None => None
      case Some(i) => Some(i + 1)
  }

  /** Position `i` holds the first element with this id. */
  ghost predicate IsFirstWithId(els: seq<Element>, id: string, i: int) {
    0 <= i < |els| && els[i].id == id && forall j :: 0 <= j < i ==> els[j].id != id
  }

  ghost predicate HasId(els: seq<Element>, id: string) {
    exists i :: 0 <= i < |els| && els[i].id == id
  }

  /** The element the store's `find(el => el.id === id)` returns. */
  function ElementById(els: seq<Element>, id: string): (r: Option<Element>)
    ensures r.None? <==> !HasId(els, id)
    ensures r.Some? ==> exists i :: IsFirstWithId(els, id, i) && els[i] == r.value
  {
    match FindIndex(els, (e: Element) => e.id == id)
    case None => None
    case Some(i) => assert IsFirstWithId(els, id, i); Some(els[i])
  }

  /** The state the store starts in; the uuid and the clock are inputs. */
  function InitialState(freshId: string, now: Time): (s: State)
    ensures s.Elements() == [] && s.templates == [] && s.selectedElementId == None
    ensures s.currentTemplate.id == freshId
    ensures s.currentTemplate.name == "Untitled Template" && s.currentTemplate.description == "Untitled"
    ensures s.currentTemplate.createdAt == now && s.currentTemplate.updatedAt == now
  {
    State(Template(freshId, "Untitled Template", now, now, "Untitled", []), [], None)
  }

  /** `setCurrentTemplate`: replaces the template being edited. */
  function SetCurrentTemplate(s: State, t: Template): (r: State)
    ensures r.currentTemplate == t
    ensures r.templates == s.templates && r.selectedElementId == s.selectedElementId
  {
    s.(currentTemplate := t)
  }

  /** `addElement`: appends, with no check that the id is new. */
  function AddElement(s: State, e: Element): (r: State)
    ensures |r.Elements()| == |s.Elements()| + 1
    ensures r.Elements()[..|s.Elements()|] == s.Elements()
    ensures r.Elements()[|s.Elements()|] == e
    ensures r.currentTemplate.(elements := s.Elements()) == s.currentTemplate
    ensures r.templates == s.templates && r.selectedElementId == s.selectedElementId
  {
    s.(currentTemplate := s.currentTemplate.(elements := s.Elements() + [e]))
  }

  /** `updateElement`: merges `changes` into the first element with this id; no-op
      when there is none. */
  function UpdateElement(s: State, id: string, changes: Changes): (r: State)
    ensures r.templates == s.templates && r.selectedElementId == s.selectedElementId
    ensures r.currentTemplate.(elements := s.Elements()) == s.currentTemplate
    ensures |r.Elements()| == |s.Elements()|
    ensures !HasId(s.Elements(), id) ==> r == s
    ensures forall i :: IsFirstWithId(s.Elements(), id, i) ==>
              && r.Elements()[i] == Merge(s.Elements()[i], changes)
              && forall j :: 0 <= j < |s.Elements()| && j != i ==> r.Elements()[j] == s.Elements()[j]
  {
    var els := s.Elements();
    match FindIndex(els, (e: Element) => e.id == id)
    case None => s
    case Some(i) =>
      assert IsFirstWithId(els, id, i);
      s.(currentTemplate := s.currentTemplate.(elements := els[i := Merge(els[i], changes)]))
  }

  /** `filter(el => el.id !== id)`. */
  function WithoutId(els: seq<Element>, id: string): (r: seq<Element>)
    ensures forall e :: e in r <==> e in els && e.id != id
    ensures |r| <= |els|
    decreases |els|
  {
    if |els| == 0 then []
    else (if els[0].id == id then [] else [els[0]]) + WithoutId(els[1..], id)
  }

  /** `removeElement`: drops every element with this id; the selection is kept even
      when it named the removed element. */
  function RemoveElement(s: State, id: string): (r: State)
    ensures forall e :: e in r.Elements() <==> e in s.Elements() && e.id != id
    ensures r.currentTemplate.(elements := s.Elements()) == s.currentTemplate
    ensures r.templates == s.templates && r.selectedElementId == s.selectedElementId
  {
    s.(currentTemplate := s.currentTemplate.(elements := WithoutId(s.Elements(), id)))
  }

  /** `selectElement`: sets the selection to an id or to nothing. */
  function SelectElement(s: State, id: Option<string>): (r: State)
    ensures r.selectedElementId == id
    ensures r.currentTemplate == s.currentTemplate && r.templates == s.templates
  {
    s.(selectedElementId := id)
  }

  ghost predicate UniqueTemplateIds(ts: seq<Template>) {
    forall i, j :: 0 <= i < j < |ts| ==> ts[i].id != ts[j].id
  }

  ghost predicate HasTemplateId(ts: seq<Template>, id: string) {
    exists i :: 0 <= i < |ts| && ts[i].id == id
  }

  /** `saveTemplate`: stamps `updatedAt`, then overwrites the first saved template
      with the same id, or (stamping `createdAt` too) appends the template. */
  function SaveTemplate(s: State, now: Time): (r: State)
    ensures r.selectedElementId == s.selectedElementId
    ensures r.currentTemplate.updatedAt == now
    ensures r.currentTemplate.(createdAt := s.currentTemplate.createdAt, updatedAt := s.currentTemplate.updatedAt)
            == s.currentTemplate
    ensures r.currentTemplate in r.templates
    ensures HasTemplateId(s.templates, s.currentTemplate.id) ==>
              && |r.templates| == |s.templates|
              && r.currentTemplate.createdAt == s.currentTemplate.createdAt
              && forall i :: 0 <= i < |s.templates| ==>
                   r.templates[i] == (if s.templates[i].id == s.currentTemplate.id
                                         && !HasTemplateId(s.templates[..i], s.currentTemplate.id)
                                      then r.currentTemplate else s.templates[i])
    ensures !HasTemplateId(s.templates, s.currentTemplate.id) ==>
              && r.templates == s.templates + [r.currentTemplate]
              && r.currentTemplate.createdAt == now
    ensures UniqueTemplateIds(s.templates) ==> UniqueTemplateIds(r.templates)
  {
    var cur := s.currentTemplate.(updatedAt := now);
    match FindIndex(s.templates, (t: Template) => t.id == cur.id)
    case Some(i) =>
      assert forall k :: 0 <= k < |s.templates| && k != i && s.templates[k].id == cur.id ==>
               HasTemplateId(s.templates[..k], cur.id) by {
        forall k | 0 <= k < |s.templates| && k != i && s.templates[k].id == cur.id
          ensures HasTemplateId(s.templates[..k], cur.id)
        {
          assert s.templates[..k][i] == s.templates[i];
        }
      }
      assert s.templates[i := cur][i] == cur;
      State(cur, s.templates[i := cur], s.selectedElementId)
    case None =>
      var created := cur.(createdAt := now);
      State(created, s.templates + [created], s.selectedElementId)
  }

  /** The store's actions, as dispatched by the components. */
  datatype Action =
    | SetCurrent(template: Template)
    | Add(element: Element)
    | Update(id: string, changes: Changes)
    | Remove(id: string)
    | Select(selection: Option<string>)
    | Save(now: Time)

  function Reduce(s: State, a: Action): State {
    match a
    case SetCurrent(t) => SetCurrentTemplate(s, t)
    case Add(e) => AddElement(s, e)
    case Update(id, c) => UpdateElement(s, id, c)
    case Remove(id) => RemoveElement(s, id)
    case Select(sel) => SelectElement(s, sel)
    case Save(now) => SaveTemplate(s, now)
  }

  /** Dispatching a list of actions in order. */
  function ReduceAll(s: State, acts: seq<Action>): State
    decreases |acts|
  {
    if |acts| == 0 then s else ReduceAll(Reduce(s, acts[0]), acts[1..])
  }

  // ---------------------------------------------------------------------------
  // Properties of the reducers
  // ---------------------------------------------------------------------------

  /** Merging every field of `e` yields `e`, whatever the element merged into. */
  lemma MergeAllOfReplaces(prior: Element, e: Element)
    ensures Merge(prior, AllOf(e)) == e
  {
  }

  /** Two successive merges are one merge of the combined changes. */
  lemma MergeThen(e: Element, c1: Changes, c2: Changes)
    ensures Merge(Merge(e, c1), c2) == Merge(e, Then(c1, c2))
  {
  }

  /** Removal distributes over concatenation, so the survivors keep their order. */
  lemma {:induction false} WithoutIdConcat(a: seq<Element>, b: seq<Element>, id: string)
    ensures WithoutId(a + b, id) == WithoutId(a, id) + WithoutId(b, id)
    decreases |a|
  {
    if |a| == 0 {
      assert a + b == b;
    } else {
      var head := if a[0].id == id then [] else [a[0]];
      assert WithoutId(a + b, id) == head + WithoutId(a[1..] + b, id) by {
        assert (a + b)[0] == a[0];
        assert (a + b)[1..] == a[1..] + b;
      }
      WithoutIdConcat(a[1..], b, id);
      assert head + (WithoutId(a[1..], id) + WithoutId(b, id)) == (head + WithoutId(a[1..], id)) + WithoutId(b, id);
    }
  }

  /** Removing an id no element has changes nothing. */
  lemma {:induction false} WithoutAbsentId(els: seq<Element>, id: string)
    requires !HasId(els, id)
    ensures WithoutId(els, id) == els
    decreases |els|
  {
    if |els| > 0 {
      assert !HasId(els[1..], id) by {
        forall i | 0 <= i < |els[1..]| ensures els[1..][i].id != id {
          assert els[1..][i] == els[i + 1];
        }
      }
      WithoutAbsentId(els[1..], id);
      assert els == [els[0]] + els[1..];
    }
  }

  /** `removeElement` is idempotent. */
  lemma RemoveIdempotent(s: State, id: string)
    ensures RemoveElement(RemoveElement(s, id), id) == RemoveElement(s, id)
  {
    var r := WithoutId(s.Elements(), id);
    assert !HasId(r, id) by {
      forall i | 0 <= i < |r| ensures r[i].id != id {
        assert r[i] in r;
      }
    }
    WithoutAbsentId(r, id);
  }

  /** Adding an element with a fresh id and removing it again restores the state. */
  lemma AddThenRemove(s: State, e: Element)
    requires !HasId(s.Elements(), e.id)
    ensures RemoveElement(AddElement(s, e), e.id) == s
  {
    WithoutIdConcat(s.Elements(), [e], e.id);
    WithoutAbsentId(s.Elements(), e.id);
    assert WithoutId([e], e.id) == [];
  }

  /** Two updates of the same element are one update with the combined changes,
      provided the first keeps the element's id. */
  lemma UpdateThen(s: State, id: string, c1: Changes, c2: Changes)
    requires KeepsId(c1, id)
    ensures UpdateElement(UpdateElement(s, id, c1), id, c2) == UpdateElement(s, id, Then(c1, c2))
  {
    var els := s.Elements();
    var m := FindIndex(els, (e: Element) => e.id == id);
    if m.Some? {
      var i := m.value;
      assert IsFirstWithId(els, id, i);
      var s1 := UpdateElement(s, id, c1);
      assert IsFirstWithId(s1.Elements(), id, i);
      MergeThen(els[i], c1, c2);
      assert UpdateElement(s1, id, c2).Elements() == UpdateElement(s, id, Then(c1, c2)).Elements();
    }
  }

  /** Two moves of the same element are the second move alone. */
  lemma MoveThenMove(s: State, id: string, x0: real, y0: real, x1: real, y1: real)
    ensures UpdateElement(UpdateElement(s, id, MoveTo(x0, y0)), id, MoveTo(x1, y1)) == UpdateElement(s, id, MoveTo(x1, y1))
  {
    UpdateThen(s, id, MoveTo(x0, y0), MoveTo(x1, y1));
    assert Then(MoveTo(x0, y0), MoveTo(x1, y1)) == MoveTo(x1, y1);
  }

  /** Two resizes of the same element are the second resize alone. */
  lemma ResizeThenResize(s: State, id: string, w0: real, h0: real, w1: real, h1: real)
    ensures UpdateElement(UpdateElement(s, id, ResizeTo(w0, h0)), id, ResizeTo(w1, h1)) == UpdateElement(s, id, ResizeTo(w1, h1))
  {
    UpdateThen(s, id, ResizeTo(w0, h0), ResizeTo(w1, h1));
    assert Then(ResizeTo(w0, h0), ResizeTo(w1, h1)) == ResizeTo(w1, h1);
  }

  /** Repeating an update that keeps the id changes nothing more. */
  lemma UpdateIdempotent(s: State, id: string, c: Changes)
    requires KeepsId(c, id)
    ensures UpdateElement(UpdateElement(s, id, c), id, c) == UpdateElement(s, id, c)
  {
    UpdateThen(s, id, c, c);
    assert Then(c, c) == c;
  }

  /** Saving twice does not grow the saved list a second time. */
  lemma SaveTwiceKeepsLength(s: State, t1: Time, t2: Time)
    ensures |SaveTemplate(SaveTemplate(s, t1), t2).templates| == |SaveTemplate(s, t1).templates|
  {
    var s1 := SaveTemplate(s, t1);
    var k :| 0 <= k < |s1.templates| && s1.templates[k] == s1.currentTemplate;
    assert HasTemplateId(s1.templates, s1.currentTemplate.id);
  }
}

=== FILE: tool_panel.dfy ===
/**
  The tool panel: adding a default text box, and adding an uploaded image scaled down to
  fit a 400 x 400 box. Ids are supplied by the caller (the panel draws them from a uuid
  generator); the upload's URL or failure, and the browser's decoding of the file, are
  inputs.
*/
module ToolPanel {
  import opened Wrappers
  import opened TemplateModel
  import opened TemplateSlice

  /** Largest size an uploaded image is shown at. */
  const MAX_IMAGE_SIDE: real := 400.0

  /** `handleAddTextBox`'s new element: a 200 x 100 left-aligned box at (100, 100), one
      layer up, saying "Edit this text" in 16-point black Arial on a transparent ground. */
  function NewTextBox(id: string): (e: Element)
    ensures e.id == id && e.Type() == TextType
    ensures e.x == 100.0 && e.y == 100.0 && e.width == 200.0 && e.height == 100.0 && e.zindex == 1
    ensures e.properties.TextProps? && e.properties.textProps
            == TextProperties("Edit this text", 16.0, "Arial", "normal", "#000000", "transparent", Left)
    ensures e.width >= TEXT_MIN_WIDTH && e.height >= TEXT_MIN_HEIGHT
  {
    Element(id, 100.0, 100.0, 200.0, 100.0, 1,
      TextProps(TextProperties("Edit this text", 16.0, "Arial", "normal", "#000000", "transparent", Left)))
  }

  /** `handleAddTextBox`: the new box is appended on top of the list. */
  function AddTextBox(s: State, id: string): (r: State)
    ensures r.Elements() == s.Elements() + [NewTextBox(id)]
    ensures r.selectedElementId == s.selectedElementId && r.templates == s.templates
  {
    AddElement(s, NewTextBox(id))
  }

  /** The new text box is already at or above the text minimum, so resizing it by a
      zero offset, or ending a transform at scale 1, leaves its size as it is. */
  lemma NewTextBoxIsStable(id: string)
    ensures var e := NewTextBox(id);
            Max(TEXT_MIN_WIDTH, e.width) == e.width && Max(TEXT_MIN_HEIGHT, e.height) == e.height
  {
  }

  /** `Math.min(400 / width, 400 / height)`, where a zero side divides to Infinity and so
      never wins. Only asked for when one side exceeds 400, so at most one side is zero. */
  function FitRatio(width: real, height: real): (k: real)
    requires width > MAX_IMAGE_SIDE || height > MAX_IMAGE_SIDE
    requires width >= 0.0 && height >= 0.0
    ensures 0.0 < k < 1.0
    ensures width > 0.0 ==> k <= MAX_IMAGE_SIDE / width
    ensures height > 0.0 ==> k <= MAX_IMAGE_SIDE / height
    ensures (width > 0.0 && k == MAX_IMAGE_SIDE / width) || (height > 0.0 && k == MAX_IMAGE_SIDE / height)
  {
    if width == 0.0 then MAX_IMAGE_SIDE / height
    else if height == 0.0 then MAX_IMAGE_SIDE / width
    else Min(MAX_IMAGE_SIDE / width, MAX_IMAGE_SIDE / height)
  }

  /** The image size `onload` computes from the natural size. */
  function FitImage(width: real, height: real): (r: (real, real))
    requires width >= 0.0 && height >= 0.0
  {
    if width > MAX_IMAGE_SIDE || height > MAX_IMAGE_SIDE then
      var k := FitRatio(width, height);
      (width * k, height * k)
    else (width, height)
  }

  /** Scaling by a ratio no larger than 400 / side keeps that side within 400, with
      equality when the ratio is exactly 400 / side. */
  lemma ScaledSide(side: real, k: real)
    requires side >= 0.0 && 0.0 < k
    requires side > 0.0 ==> k <= MAX_IMAGE_SIDE / side
    requires side == 0.0 ==> k < 1.0
    ensures side * k <= MAX_IMAGE_SIDE
    ensures side > 0.0 && k == MAX_IMAGE_SIDE / side ==> side * k == MAX_IMAGE_SIDE
  {
    if side > 0.0 {
      calc {
        side * k;
      <= { assert k <= MAX_IMAGE_SIDE / side; }
        side * (MAX_IMAGE_SIDE / side);
      ==
        MAX_IMAGE_SIDE;
      }
    }
  }

  /** An image that already fits is kept at its natural size. A larger one is scaled down
      uniformly: it then fits, one side is exactly 400, the aspect ratio is kept and
      neither side grows. */
  lemma FitImageFits(width: real, height: real)
    requires width >= 0.0 && height >= 0.0
    ensures var r := FitImage(width, height);
            && (width <= MAX_IMAGE_SIDE && height <= MAX_IMAGE_SIDE ==> r == (width, height))
            && r.0 <= MAX_IMAGE_SIDE && r.1 <= MAX_IMAGE_SIDE
            && (width > MAX_IMAGE_SIDE || height > MAX_IMAGE_SIDE ==> r.0 == MAX_IMAGE_SIDE || r.1 == MAX_IMAGE_SIDE)
            && r.0 * height == r.1 * width
            && 0.0 <= r.0 <= width && 0.0 <= r.1 <= height
  {
    if width > MAX_IMAGE_SIDE || height > MAX_IMAGE_SIDE {
      var k := FitRatio(width, height);
      ScaledSide(width, k);
      ScaledSide(height, k);
      assert (width * k) * height == (height * k) * width;
      assert width * k <= width && height * k <= height;
    }
  }

  /** The uploaded image's new element: at (100, 100) on the bottom layer, at the natural
      size fitted to 400 x 400, fully opaque. */
  function NewImage(id: string, url: string, naturalWidth: real, naturalHeight: real): (e: Element)
    requires naturalWidth >= 0.0 && naturalHeight >= 0.0
    ensures e.id == id && e.Type() == ImageType
    ensures e.x == 100.0 && e.y == 100.0 && e.zindex == 0
    ensures e.properties == ImageProps(ImageProperties(url, 1.0))
    ensures (e.width, e.height) == FitImage(naturalWidth, naturalHeight)
  {
    var size := FitImage(naturalWidth, naturalHeight);
    Element(id, 100.0, 100.0, size.0, size.1, 0, ImageProps(ImageProperties(url, 1.0)))
  }

  /** Creation does not apply the transform minimum: a 10 x 5 upload becomes a 10 x 5
      element, below the 30 x 30 an image may be transformed to. */
  lemma SmallUploadKeepsSize(id: string, url: string)
    ensures var e := NewImage(id, url, 10.0, 5.0);
            e.width == 10.0 && e.height == 5.0
  {
  }

  /** `handleImageUpload`: the element is added only from `img.onload`. No file, a failed
      upload, or a file the browser cannot decode (so `onload` never fires) adds nothing.
      `upload` is the URL the server returned, if any; `decoded` the natural size, if the
      browser decoded the file. */
  function UploadImage(s: State, fileCount: nat, upload: Option<string>,
                       decoded: Option<(real, real)>, id: string): (r: State)
    requires decoded.Some? ==> decoded.value.0 >= 0.0 && decoded.value.1 >= 0.0
    ensures fileCount == 0 || upload.None? || decoded.None? ==> r == s
    ensures fileCount > 0 && upload.Some? && decoded.Some? ==>
              r.Elements() == s.Elements() + [NewImage(id, upload.value, decoded.value.0, decoded.value.1)]
              && r.selectedElementId == s.selectedElementId && r.templates == s.templates
  {
    if fileCount == 0 then s
    else match upload
      case None => s
      case Some(url) =>
        match decoded
        case None => s
        case Some(size) => AddElement(s, NewImage(id, url, size.0, size.1))
  }

  /** Whatever the upload, the store either stays as it was or gains exactly one new
      element, an image that fits 400 x 400 with the file's aspect ratio; removing it by
      its fresh id restores the store. */
  lemma UploadAddsFittedImage(s: State, fileCount: nat, upload: Option<string>,
                              decoded: Option<(real, real)>, id: string)
    requires decoded.Some? ==> decoded.value.0 >= 0.0 && decoded.value.1 >= 0.0
    requires !HasId(s.Elements(), id)
    ensures var r := UploadImage(s, fileCount, upload, decoded, id);
            r == s
            || (&& |r.Elements()| == |s.Elements()| + 1
                && var e := r.Elements()[|s.Elements()|];
                && e.id == id && e.Type() == ImageType
                && e.width <= MAX_IMAGE_SIDE && e.height <= MAX_IMAGE_SIDE
                && e.width * decoded.value.1 == e.height * decoded.value.0
                && RemoveElement(r, id) == s)
  {
    if fileCount > 0 && upload.Some? && decoded.Some? {
      var (w, h) := decoded.value;
      var e := NewImage(id, upload.value, w, h);
      FitImageFits(w, h);
      AddThenRemove(s, e);
    }
  }

  /** Adding a text box and taking it out again by id restores the store, provided the
      fresh id was not in use. */
  lemma AddTextBoxUndone(s: State, id: string)
    requires !HasId(s.Elements(), id)
    ensures RemoveElement(AddTextBox(s, id), id) == s
  {
    AddThenRemove(s, NewTextBox(id));
  }
}

=== FILE: viewport.dfy ===
/**
  The two DOM canvases (the current one and the archived one): how the A4 page is
  scaled to fit its container, how a click on the bare canvas deselects, and how the
  archived canvas switches its scale off around an export.
*/
module Viewport {
  import opened Wrappers
  import opened TemplateModel
  import opened TemplateSlice

  /** Horizontal room kept free around the page. */
  const MARGIN: real := 80.0

  /** Container width at and above which the page is shown at full size. */
  const FULL_SIZE_WIDTH: real := 1203.0

  /** `parentElement?.clientWidth || window.innerWidth`: a missing parent and a parent of
      width 0 both fall back to the window width. */
  function ContainerWidth(parentWidth: Option<real>, windowWidth: real): (w: real)
    ensures parentWidth.Some? && parentWidth.value != 0.0 ==> w == parentWidth.value
    ensures parentWidth.None? || parentWidth.value == 0.0 ==> w == windowWidth
    ensures w == 0.0 ==> windowWidth == 0.0
  {
    if parentWidth.Some? && parentWidth.value != 0.0 then parentWidth.value else windowWidth
  }

  /** `updateScale`: the page shrinks to fit the container less the margin, and is never
      enlarged. There is no lower bound. */
  function Scale(containerWidth: real): (r: real)
    ensures r <= 1.0
    ensures r == 1.0 <==> containerWidth >= FULL_SIZE_WIDTH
  {
    Min(1.0, (containerWidth - MARGIN) / A4_WIDTH)
  }

  /** Below full size, the scaled page width is exactly the room the container offers;
      at full size the page fits in that room. */
  lemma ScaledPageFitsContainer(containerWidth: real)
    ensures A4_WIDTH * Scale(containerWidth) <= containerWidth - MARGIN
    ensures containerWidth < FULL_SIZE_WIDTH ==> A4_WIDTH * Scale(containerWidth) == containerWidth - MARGIN
  {
  }

  /** A wider container never gives a smaller page. */
  lemma ScaleMonotone(a: real, b: real)
    requires a <= b
    ensures Scale(a) <= Scale(b)
  {
  }

  /** A container no wider than the margin gives a scale of zero or below. */
  lemma ScaleNonPositive(containerWidth: real)
    ensures Scale(containerWidth) <= 0.0 <==> containerWidth <= MARGIN
  {
  }

  /** The style of the page element: its layout box and the CSS `scale()` applied to it. */
  datatype PageStyle = PageStyle(width: real, height: real, transform: real)

  /** The size the page occupies on screen: the layout box under its transform. */
  function OnScreen(st: PageStyle): (real, real) {
    (st.width * st.transform, st.height * st.transform)
  }

  /** canvas/Canvas.tsx as written: the layout box is already A4 times the scale, and the
      transform scales it again, so the page appears at A4 times the scale squared. */
  function CurrentPageStyleAsWritten(scale: real): (st: PageStyle)
    ensures OnScreen(st).0 == A4_WIDTH * scale * scale && OnScreen(st).1 == A4_HEIGHT * scale * scale
  {
    PageStyle(A4_WIDTH * scale, A4_HEIGHT * scale, scale)
  }

  /** For every container narrower than full size (and wider than the margin) the page
      as written is drawn strictly narrower than the room the scale was computed for:
      its on-screen width is that room times the scale. */
  lemma AsWrittenPageScaledTwice(containerWidth: real)
    ensures containerWidth < FULL_SIZE_WIDTH ==>
              var sc := Scale(containerWidth);
              OnScreen(CurrentPageStyleAsWritten(sc)).0 == (containerWidth - MARGIN) * sc
    ensures MARGIN < containerWidth < FULL_SIZE_WIDTH ==>
              OnScreen(CurrentPageStyleAsWritten(Scale(containerWidth))).0 < containerWidth - MARGIN
  {
    var sc := Scale(containerWidth);
    var w := OnScreen(CurrentPageStyleAsWritten(sc)).0;
    assert w == A4_WIDTH * sc * sc;
    if containerWidth < FULL_SIZE_WIDTH {
      ScaledPageFitsContainer(containerWidth);
      assert A4_WIDTH * sc == containerWidth - MARGIN;
      assert w == (containerWidth - MARGIN) * sc;
      if MARGIN < containerWidth {
        assert 0.0 < sc < 1.0;
        assert (containerWidth - MARGIN) * sc < (containerWidth - MARGIN) * 1.0;
      }
    }
  }

  /** As written, for a container of 641.5 pixels (scale 1/2) the page is 280.75 pixels
      wide, half the 561.5 pixels the scale was computed for, while an element at the
      right edge of the page is still drawn 561 pixels in. */
  lemma AsWrittenPageShrinksTwice()
    ensures Scale(641.5) == 0.5
    ensures OnScreen(CurrentPageStyleAsWritten(Scale(641.5))).0 == 280.75
    ensures A4_WIDTH * Scale(641.5) == 561.5
    ensures (A4_WIDTH - 1.0) * Scale(641.5) > OnScreen(CurrentPageStyleAsWritten(Scale(641.5))).0
  {
  }

  /** archieve/Canvas.tsx: the layout box is the logical A4 size and no transform is set.
      The parameter is the scale the component computes and keeps in its state; it is
      taken, like the other two page styles take it, to state that it is never read. */
  function ArchivedPageStyle(scale: real): (st: PageStyle)
    ensures OnScreen(st) == (A4_WIDTH, A4_HEIGHT)
  {
    PageStyle(A4_WIDTH, A4_HEIGHT, 1.0)
  }

  /** The archived page is drawn at the same size for every container, so in any
      container narrower than full size it overflows the room the scale was computed for. */
  lemma ArchivedPageIgnoresScale(a: real, b: real)
    ensures OnScreen(ArchivedPageStyle(Scale(a))) == OnScreen(ArchivedPageStyle(Scale(b)))
    ensures OnScreen(ArchivedPageStyle(Scale(a))) == OnScreen(IntendedPageStyle(1.0))
    ensures a < FULL_SIZE_WIDTH ==>
              OnScreen(ArchivedPageStyle(Scale(a))).0 > OnScreen(IntendedPageStyle(Scale(a))).0
  {
    var sc := Scale(a);
    if a < FULL_SIZE_WIDTH {
      ScaledPageFitsContainer(a);
      assert OnScreen(IntendedPageStyle(sc)).0 == A4_WIDTH * sc;
    }
  }

  /** The page as the archived canvas's comment asks for it: laid out at the logical size
      and scaled once by the transform for display; with the transform removed (scale 1)
      it is the logical page, as an export needs. */
  function IntendedPageStyle(scale: real): (st: PageStyle)
    ensures st.width == A4_WIDTH && st.height == A4_HEIGHT
    ensures OnScreen(st).0 == A4_WIDTH * scale && OnScreen(st).1 == A4_HEIGHT * scale
  {
    PageStyle(A4_WIDTH, A4_HEIGHT, scale)
  }

  /** Laid out at logical size and scaled once, the page appears at A4 times the scale,
      which below full size is exactly the room in the container; an element at logical
      position x inside the page is drawn at x times the scale, inside the page. Drawn as
      written, the same page would be smaller by a further factor of the scale. */
  lemma PageStyleShowsScaledPage(containerWidth: real, x: real)
    requires 0.0 <= x <= A4_WIDTH
    ensures var sc := Scale(containerWidth);
            && OnScreen(IntendedPageStyle(sc)) == (A4_WIDTH * sc, A4_HEIGHT * sc)
            && (containerWidth < FULL_SIZE_WIDTH ==> OnScreen(IntendedPageStyle(sc)).0 == containerWidth - MARGIN)
            && (sc >= 0.0 ==> x * sc <= OnScreen(IntendedPageStyle(sc)).0)
            && OnScreen(CurrentPageStyleAsWritten(sc)).0 == OnScreen(IntendedPageStyle(sc)).0 * sc
  {
    var sc := Scale(containerWidth);
    ScaledPageFitsContainer(containerWidth);
    if sc >= 0.0 {
      assert x * sc <= A4_WIDTH * sc;
    }
  }

  /** `handleCanvasClick`: only a click on the canvas itself (not on an element inside it)
      clears the selection. */
  function CanvasClick(targetIsCanvas: bool): (acts: seq<Action>)
    ensures |acts| <= 1
    ensures targetIsCanvas <==> acts == [Select(None)]
  {
    if targetIsCanvas then [Select(None)] else []
  }

  /** The effect of a click on the store: the selection is cleared exactly for clicks on
      the canvas itself, and nothing else changes. */
  lemma CanvasClickDeselects(s: State, targetIsCanvas: bool)
    ensures var r := ReduceAll(s, CanvasClick(targetIsCanvas));
            && r.currentTemplate == s.currentTemplate && r.templates == s.templates
            && r.selectedElementId == (if targetIsCanvas then None else s.selectedElementId)
  {
    if targetIsCanvas {
      assert ReduceAll(s, [Select(None)]) == SelectElement(s, None);
    }
  }

  // ---------------------------------------------------------------------------
  // Switching the scale off around an export
  // ---------------------------------------------------------------------------

  /** How the callback ends: it returns, it throws, or it is asynchronous and the rest of
      its work runs after an `await` inside it. */
  datatype Outcome = Returns | Throws | Suspends

  /** The statements the helper is made of. */
  datatype Stmt =
    | SaveTransform     // keep the canvas's current transform
    | ClearTransform    // set the transform to 'none'
    | CallCallback      // call the callback and ignore what it returns
    | AwaitCallback     // call the callback and await what it returns
    | RestoreTransform  // set the transform back to the kept value

  /** A helper body, with a `finally` block or without one. */
  datatype Helper = Helper(body: seq<Stmt>, finallyBlock: Option<seq<Stmt>>)

  /** The helper while it runs: the canvas's transform, the kept value, whether an
      exception is propagating, what the callback's synchronous part and its remainder
      saw, and whether the remainder is still waiting to run. */
  datatype Machine = Machine(transform: string, saved: string, thrown: bool,
                             sync: Option<string>, later: Option<string>, pending: bool)

  /** One statement. A callback that is not awaited leaves its remainder pending; an
      awaited one runs its remainder before the helper goes on. */
  function Exec(m: Machine, st: Stmt, cb: Outcome): (r: Machine)
    ensures st.CallCallback? || st.AwaitCallback? ==> r.sync == Some(m.transform)
    ensures r.thrown <==> m.thrown || ((st.CallCallback? || st.AwaitCallback?) && cb.Throws?)
  {
    match st
    case SaveTransform => m.(saved := m.transform)
    case ClearTransform => m.(transform := "none")
    case RestoreTransform => m.(transform := m.saved)
    case CallCallback =>
      var called := m.(sync := Some(m.transform));
      (match cb
       case Returns => called
       case Throws => called.(thrown := true)
       case Suspends => called.(pending := true))
    case AwaitCallback =>
      var called := m.(sync := Some(m.transform));
      (match cb
       case Returns => called
       case Throws => called.(thrown := true)
       case Suspends => called.(later := Some(m.transform)))
  }

  /** Statements in order; a propagating exception skips the rest. */
  function ExecAll(m: Machine, sts: seq<Stmt>, cb: Outcome): (r: Machine)
    ensures m.thrown ==> r == m
    decreases |sts|
  {
    if |sts| == 0 || m.thrown then m else ExecAll(Exec(m, sts[0], cb), sts[1..], cb)
  }

  /** What a call of the helper shows: whether the callback was called and whether the
      call threw, the canvas's transform afterwards (none without a canvas), and the
      transform seen by the callback's synchronous part and by its remainder. */
  datatype Removal = Removal(invoked: bool, threw: bool, afterwards: Option<string>,
                             whileCalled: Option<string>, inContinuation: Option<string>)

  /** Runs a helper on the canvas's transform, if the canvas exists. Without one it
      returns at once. A `finally` block runs whether or not the body threw, and the
      exception propagates after it. A remainder still pending when the helper returns
      runs afterwards and sees the transform the helper left. */
  function RunHelper(h: Helper, canvas: Option<string>, cb: Outcome): (r: Removal)
    ensures canvas.None? ==> r == Removal(false, false, None, None, None)
    ensures canvas.Some? ==> r.afterwards.Some?
    ensures r.inContinuation.Some? ==> r.invoked && cb.Suspends?
  {
    match canvas
    case None => Removal(false, false, None, None, None)
    case Some(t) =>
      var start := Machine(t, "", false, None, None, false);
      var b := ExecAll(start, h.body, cb);
      var m := match h.finallyBlock
               case None => b
               case Some(fin) =>
                 var f := ExecAll(b.(thrown := false), fin, cb);
                 f.(thrown := f.thrown || b.thrown);
      var later := if m.pending then Some(m.transform) else m.later;
      Removal(m.sync.Some?, m.thrown, Some(m.transform), m.sync, if m.sync.Some? && cb.Suspends? then later else None)
  }

  /** `removeCanvasScaleTemporarily` as written: keep, clear, call, restore, with no
      `finally` and no `await`. */
  const AsWrittenHelper: Helper := Helper([SaveTransform, ClearTransform, CallCallback, RestoreTransform], None)

  /** The helper with the callback awaited and the restore in `finally`. Keeping and
      clearing the transform cannot throw, so they may sit inside the `try`. */
  const GuardedHelper: Helper := Helper([SaveTransform, ClearTransform, AwaitCallback], Some([RestoreTransform]))

  function RemoveScaleTemporarilyAsWritten(canvas: Option<string>, cb: Outcome): (r: Removal)
    ensures r.invoked <==> canvas.Some?
    ensures r.threw <==> canvas.Some? && cb.Throws?
  {
    RunHelper(AsWrittenHelper, canvas, cb)
  }

  function RemoveScaleTemporarily(canvas: Option<string>, cb: Outcome): (r: Removal)
    ensures r.invoked <==> canvas.Some?
    ensures r.threw <==> canvas.Some? && cb.Throws?
  {
    RunHelper(GuardedHelper, canvas, cb)
  }

  /** As written, the callback's synchronous part always runs unscaled, and a callback
      that does not throw finds the transform restored to what it was. */
  lemma RemoveScaleRestores(prev: string, cb: Outcome)
    ensures var r := RemoveScaleTemporarilyAsWritten(Some(prev), cb);
            && r.whileCalled == Some("none")
            && (!cb.Throws? ==> r.afterwards == Some(prev))
  {
  }

  /** As written, a throwing callback leaves the page unscaled for good, and an
      asynchronous callback's remainder (where an export would capture the page) runs
      after the restore, so it sees the earlier transform instead of 'none'. */
  lemma AsWrittenRestoreUnguarded(prev: string)
    requires prev != "none"
    ensures RemoveScaleTemporarilyAsWritten(Some(prev), Throws).afterwards == Some("none")
    ensures RemoveScaleTemporarilyAsWritten(Some(prev), Suspends).inContinuation == Some(prev)
  {
  }

  /** Awaited and guarded, every part of the callback runs unscaled and the transform is
      restored however the callback ends; an exception still reaches the caller. */
  lemma GuardedRemovalRestores(prev: string, cb: Outcome)
    ensures var r := RemoveScaleTemporarily(Some(prev), cb);
            && r.whileCalled == Some("none")
            && (cb.Suspends? ==> r.inContinuation == Some("none"))
            && r.afterwards == Some(prev)
  {
  }
}

=== FILE: wrappers.dfy ===
/** The optional value used wherever the source uses `null`/`undefined`. */
module Wrappers {

  datatype Option<+T> = None | Some(value: T) {

    /** Returns the value inside `Some`, or `default` for `None`
        (the `??` operator of the source). */
    function GetOr(default: T): T {
      match this
      case Some(v) => v
      case None => default
    }
  }
}
